=== FILE: README.md ===
# Greyscale web extension: a Dafny model of its settings-and-matching core

The extension greyscales the pages of sites the user has saved. It has three
parts, and each has its own module in this project:

- **the background worker** decides, per tab, whether the tab's hostname
  falls under an enabled saved site. It then injects or removes a style
  element with id `greyscale-web-extension`.
- **the popup** edits the saved site list. It normalises and validates a
  typed domain, toggles, deletes, and enables or disables all sites at once.
- **the content script** runs in every page. It makes the same decision,
  but strips `www.` differently (see "## Findings"). It keeps one style
  element of its own, with id `greyscale-extension-style`. Its entry points
  are modelled with the strip as written. The corrected strip is modelled
  beside it, together with what it achieves.

Modules:

- `Wrappers`: `Option`.
- `Strings`: the JavaScript string operations used:
  - prefix and suffix tests, first-occurrence search and replace;
  - `trim` over the JavaScript white-space and line-terminator set;
  - ASCII lower-casing;
  - decimal printing and parsing of integers.
- `Css`: the greyscale style template and reading its percentage back.
- `Sites`: the site list (`map<string, SiteEntry>`) and the reference meaning
  of the matcher (`HostEnabled`).
- `Settings`: the stored record and the defaulting each part applies when
  reading it.
- `Dom`: a page as the sequence of style elements under the root, in tree
  order. Each element carries an identity, which is what a script's
  reference points at. `getElementById` finds the first element in tree
  order.
- `Background`, `Popup` and `Content`: the three parts.

Browser services are inputs or outputs rather than calls:

- storage is a `StoredSettings` record read and written;
- the hostname that `new URL(...)` yields is an `Option<string>`, where None
  means the parser threw;
- the order `Object.keys` enumerates keys in is any sequence listing exactly
  the map's keys;
- whether the host lets a script run on a tab is a boolean;
- a page is a `Page` value.

The model follows the code on two points a reader might expect otherwise:

- the intensity is never clamped or rejected; any stored integer passes
  through to the style text;
- saved keys can start with `www.`. Typing `www.www.a.com` saves `www.a.com`,
  and `toggleSite` saves whatever domain it is given. Such a key never
  matches its own host (`Sites.WwwKeyMissesItself`).

## Model

| member | source | states |
|---|---|---|
| Background.IsDomainEnabled | background.js:24-35 | The loop over the keys, in any enumeration order and with its early return, answers exactly whether some enabled key equals, or is a dot-suffix of, the hostname with one leading `www.` removed |
| Sites.EmptyNeverEnabled | background.js:24-35 | With no saved sites no hostname is enabled |
| Sites.DisablingIsMonotone | background.js:28 | Setting any key to disabled can only turn a match off, never on |
| Sites.EnablingIsMonotone | background.js:28 | Setting any key to enabled can only turn a match on, never off |
| Sites.OnlyEnabledKeysMatter | background.js:28 | Two site lists with the same enabled keys give the same verdict for every hostname; disabled entries never contribute |
| Sites.StripUndoesOnePrefix | background.js:25 | Removing the anchored `www.` undoes exactly one prepended `www.` |
| Sites.StripOnlyLeading | background.js:25 | A hostname that does not start with `www.` is left as it is, wherever else `www.` occurs |
| Sites.StripExamples | background.js:25 | `www.www.a.com` becomes `www.a.com`; `a.www.b.com` is untouched; `www.example.com` becomes `example.com` |
| Sites.DotSuffixMatches | background.js:25-29 | A hostname that ends with `.` + key still matches the key after its leading `www.` is stripped |
| Sites.MatchesUnstripped | background.js:25-29 | A match after stripping implies the unstripped hostname is the key or ends with `.` + key |
| Sites.MatchIgnoresWww | background.js:25-29 | For a key without a leading `www.`, matching the stripped hostname is the same as matching the hostname itself |
| Sites.WwwKeyMissesItself | background.js:25-29 | A saved key `www.a.com` never matches the host `www.a.com` |
| Sites.SubdomainInherits | background.js:29 | Every subdomain of an enabled host is enabled too |
| Sites.WwwHostMatchesBareKey | background.js:25-29 | `www.example.com` falls under a saved, enabled `example.com` |
| Sites.SubdomainMatchesKey | background.js:29 | `sub.example.com` falls under a saved, enabled `example.com` |
| Sites.SuffixWithoutDotMisses | background.js:29 | `notexample.com` does not fall under `example.com`: the suffix must start at a dot |
| Sites.DisabledKeyMisses | background.js:28 | A saved but disabled `a.com` does not greyscale `a.com` |
| Settings.SitesOrEmpty | background.js:18 | A stored site list passes through; an absent or null one becomes the empty list |
| Settings.Load | background.js:15-21 | Sites default to the empty list; an absent or null intensity defaults to 100; a present intensity passes through unclamped |
| Settings.SaveLoadRoundTrip | background.js:15-21 | Reading back settings that were just written gives the same settings |
| Settings.SaveSitesKeepsIntensity | popup.js:190-192 | Writing only the site list changes what is read back for the site list and leaves the intensity as it was |
| Settings.OnInstalled | background.js:4-12 | A fresh install stores an empty site list and the number 100, not nulls. The background worker therefore reads no sites and intensity 100, and so does the content script. Any other reason writes nothing |
| Settings.ContentLoad | content.js:11-12 | The content script reads the same sites as the other parts, and intensity 100 only when none was stored; a stored null stays null |
| Settings.IntensityReadingsAgree | content.js:12 | The content script and the background worker read the same intensity exactly when the stored value is not null |
| Css.GetGreyscaleCss | background.js:38-45 | `getGreyscaleCSS` builds a rule that carries the decimal text of the intensity in both declarations and reads back that intensity. The background worker defines it but never calls it: the injected function at background.js:62-67 builds its own copy |
| Css.PercentText | background.js:41-42 | A percentage text is read back only from a whole rule: the `filter` and `-webkit-filter` declarations must both carry it, in the template's layout |
| Css.SplitRuleRejected | background.js:41-42 | A style text whose `-webkit-filter` declaration carries a different percentage from its `filter` declaration is not read as a rule |
| Css.IntensityRoundTrip | background.js:38-45 | The style text built from an intensity reads back that intensity from both declarations, for every layout of the template |
| Css.PercentTextRoundTrip | background.js:62-67 | The percentage text written into both declarations of the rule is the text read back from it |
| Css.GreyscaleCssInjective | background.js:38-45 | Two intensities give the same style text only when they are equal |
| Strings.IntTextRoundTrip | background.js:64 | An integer's decimal text parses back to that integer |
| Strings.TrimIdempotent | popup.js:135 | Trimming twice trims no more than trimming once |
| Strings.TrimLowerCommute | popup.js:135 | Trimming and ASCII lower-casing can be done in either order |
| Strings.IndexOf | content.js:19 | The search finds the first position where the pattern occurs, or reports that it occurs nowhere |
| Background.ApplyStyle | background.js:52-69 | With no element under the fixed id, one is added; with one or more, one is replaced, so the count stays the same. No element under another id changes, and identities stay well formed. When at most one was there before, `getElementById` finds a fresh element carrying the rule |
| Background.RemoveStyle | background.js:84-89 | One element under the fixed id fewer, none if there was none; no other element changes |
| Background.ApplyThenView | background.js:52-69 | After an apply the page is filtered at exactly the applied intensity, with one element under the fixed id |
| Background.ApplyTwice | background.js:52-69 | Applying twice with any intensities leaves one element, showing the last intensity |
| Background.RemoveIdempotent | background.js:84-89 | Removing leaves no element under the fixed id, shows no filter, and doing it again changes nothing |
| Background.Perform | background.js:52-94 | A refused injection is caught and leaves the page as it was, and so does no action. An injection never puts a second element under the fixed id |
| Background.PerformOutcome | background.js:52-94 | An injection that runs leaves the page filtered at the applied intensity, or unfiltered after a remove |
| Background.Decide | background.js:98-110 | No URL, a URL not starting with `http`, or an unparsable URL gives no action; otherwise apply with the stored intensity exactly when the host is enabled, else remove |
| Background.UpdateTab | background.js:98-114 | An early return leaves the page as it was, and so do a URL that fails to parse and a refused injection, both caught; otherwise the page's filter state is the enabled verdict at the stored intensity, or no filter; at most one element under the fixed id is kept |
| Background.UpdateTabIdempotent | background.js:98-114 | A second update with the same URL and settings leaves the filter state the first one produced |
| Background.VisitOrderMembers | background.js:120-124 | The visited ids are exactly the ids of tabs with a truthy id and URL |
| Background.VisitOrderLength | background.js:120-124 | The sweep visits no more tabs than there are; all when every tab qualifies, none when none does |
| Background.UpdateAllTabs | background.js:117-125 | The sweep visits the qualifying tabs in enumeration order, updates each with the same stored settings and leaves the others untouched |
| Popup.Normalize | popup.js:135-136 | The whole normalisation as one definition: trim, ASCII lower case, the anchored scheme-and-`www.` replacement, then the cut at the first `/`. Its properties are stated by the `Popup.Normalize…` rows |
| Popup.StripSchemeAndWww | popup.js:136 | What the anchored scheme-and-`www.` replacement leaves is a suffix of its input |
| Popup.NormalizeShape | popup.js:135-136 | A normalised domain contains no `/` and no upper-case letter |
| Popup.NormalizeIgnoresCase | popup.js:135 | Typing in upper or lower case gives the same domain |
| Popup.NormalizePlain | popup.js:135-136 | Input that needs no trimming or lower-casing and has no scheme normalises to its cut at the first `/` after one leading `www.` is removed |
| Popup.NormalizeUnschemed | popup.js:135-136 | The same for any lower-case, trimmed input without a `:` |
| Popup.NormalizeHost | popup.js:135-136 | A lower-case host name normalises to itself less one leading `www.` |
| Popup.NormalizeFixpoint | popup.js:135-136 | A valid lower-case domain without a leading `www.` is its own normal form |
| Popup.NormalizeStripsOneWww | popup.js:136 | `www.` followed by a host name normalises to that host name |
| Popup.DoubleWwwKeepsOne | popup.js:136 | Only one `www.` is removed: `www.www.` + d normalises to `www.` + d |
| Popup.NormalizeCutsPath | popup.js:136 | A host followed by `/` and a path normalises to the host |
| Popup.NormalizeStripsScheme | popup.js:136 | Host text typed after `http://` or `https://` normalises to the host less one leading `www.`, the same as without the scheme |
| Popup.NormalizeCaseAndPathExample | popup.js:135-136 | `Example.COM/path` normalises to `example.com` |
| Popup.NormalizeSchemeExample | popup.js:136 | `https://www.example.com` normalises to `example.com` |
| Popup.NormalizeUrl | popup.js:135-136 | An address pasted with `http://` or `https://`, host text and a path normalises to the host less one leading `www.`. The path may hold any lower-case characters, `:` included, and must not end in white space |
| Popup.NormalizeUrlExample | popup.js:135-136 | `https://www.example.com/path` normalises to `example.com` |
| Popup.ValidDomain | popup.js:143 | The domain pattern as one definition: split at the last `.` and test both parts. `Popup.ValidDomainMatchesPattern` ties it to the regular expression |
| Popup.ValidDomainMatchesPattern | popup.js:143 | Splitting at the last `.` decides the domain pattern exactly as the regular expression does, over every choice of split |
| Popup.ValidDomainShape | popup.js:143 | A valid domain starts and ends with a letter or digit, holds only letters, digits, `-` and `.`, and has at least four characters |
| Popup.AddNewSite | popup.js:134-164 | Empty, invalid and duplicate input are each refused, exactly in the source's order, with the list unchanged; otherwise the normalised domain is saved as enabled and every other entry is untouched |
| Popup.ReAddRejected | popup.js:148-151 | Typing a just-added domain that does not start with `www.` is refused as a duplicate |
| Popup.WwwKeyRetyped | popup.js:148-151 | A saved `www.` + d typed again normalises to d. It is refused only when d itself is saved, and is otherwise added as d beside the `www.` key |
| Popup.AddThenDelete | popup.js:153-178 | Deleting a just-added domain gives back the original list |
| Popup.AddedSiteGreyscales | popup.js:153 | An added domain that does not start with `www.` greyscales itself, its `www.` form and every subdomain |
| Popup.ForeignCharRejected | popup.js:143-146 | Any character other than a letter, digit, `-` or `.` left after normalising makes the input invalid |
| Popup.BlankRejected | popup.js:138-141 | Blank input is refused as empty |
| Popup.ToggleSite | popup.js:167-174 | The domain ends up saved with the given flag, whether or not it was there; no other entry changes; no validation is applied |
| Popup.DeleteSite | popup.js:177-178 | Exactly the domain is removed; deleting an absent domain changes nothing |
| Popup.ToggleThenDelete | popup.js:167-178 | Deleting after toggling is the same as deleting; for an unsaved domain it restores the list |
| Popup.BulkToggle | popup.js:119-127 | With no saved sites nothing is changed or written; otherwise the key set is kept and every flag becomes the given one |
| Popup.BulkEnableMatchesAllKeys | popup.js:119-127 | After enabling all sites, a host is greyscaled exactly when some saved key matches it |
| Popup.BulkDisableMatchesNothing | popup.js:119-127 | After disabling all sites, no host is greyscaled |
| Popup.GetCurrentTab | popup.js:65-80 | An http(s) tab whose URL parses yields its hostname less one leading `www.`; anything else is unavailable. The toggle is checked exactly when that domain is itself saved and enabled, and then the tab is greyscaled |
| Popup.ToggleMissesSubdomains | popup.js:73 | On a subdomain of a saved site the page is greyscaled while the toggle shows unchecked |
| Popup.OnCurrentSiteToggle | popup.js:90-95 | With no current domain (empty or `Not available`) the list is unchanged. Otherwise the domain is saved with the toggle's state, and every other entry is kept |
| Popup.ToggleOnGreyscalesCurrent | popup.js:90-95 | Switching the toggle on greyscales the current tab whenever a current domain was found; otherwise nothing is saved |
| Popup.ToggleOnBareWwwDoesNothing | popup.js:90-95 | On the host `www.` the current domain is empty, the toggle saves nothing and the tab stays ungreyscaled |
| Popup.ToggleOffMayNotClear | popup.js:90-95 | Switching the toggle off on `sub.a.com` saves it disabled, yet the tab stays greyscaled while `a.com` is saved and enabled |
| Content.CurrentDomainAsWritten | content.js:19 | `hostname.replace('www.', '')` as one definition: the first `www.` anywhere in the hostname is removed. `Content.StripsAgree` and the two as-written rows below state what it does |
| Content.EnabledAsWritten | content.js:19-31 | The content script's verdict as written, as one definition: the hostname with the first `www.` removed falls under an enabled key. `Content.ShouldApply` computes it |
| Content.StripsAgree | content.js:19 | The unanchored replacement and the anchored strip agree on hostnames that start with `www.` or do not contain it |
| Content.UnanchoredStripGreyscalesWrongSite | content.js:19 | As written, `mywww.site.com` is read as `mysite.com` and greyscaled under a saved `mysite.com`, which the background worker does not do |
| Content.UnanchoredStripMissesSavedSite | content.js:19 | As written, a saved `awww.b.com` is not applied on `awww.b.com`, although the background worker applies it |
| Content.EnabledAgreesWithBackground | content.js:18-31 | With the corrected, anchored strip the content script's verdict equals the background worker's for every hostname and site list |
| Content.ShouldApply | content.js:22-31 | The loop, testing the match before the flag and stopping at the first hit, answers exactly whether some enabled key matches, in any enumeration order |
| Content.ContentCssReadsBack | content.js:40-45 | The rule carries the intensity's text: a number reads back as that number. A stored null or a missing value reads back as no number, and a missing one is printed as `undefined` |
| Content.CreateStyle | content.js:34-38 | With no element, a fresh one under the content id is appended and remembered; no other element changes |
| Content.WriteText | content.js:40-45 | The remembered element gets the text and stays the one `getElementById` finds; nothing else changes |
| Content.ApplyStyle | content.js:33-45 | After an apply the reference is set, is kept if it was already set, and names the only element under the content id, which carries the rule |
| Content.RemoveStyle | content.js:46-50 | After a non-apply no element is under the content id and the reference is null; with no reference nothing changes |
| Content.ApplyGreyscale | content.js:18-52 | The element exists exactly when the hostname, stripped as written, falls under an enabled key. It holds the rule for the given intensity, and no element under another id changes |
| Content.ApplyGreyscaleIdempotent | content.js:18-52 | Applying again with the same arguments leaves the page and the reference unchanged; the element is reused, never duplicated |
| Content.Init | content.js:8-15 | After start-up the element exists exactly when the stored sites enable the hostname stripped as written, and carries the rule for the content script's reading of the intensity; otherwise no element is under the content id |
| Content.InitAgreesWithBackground | content.js:8-19 | On hostnames that start with `www.` or do not contain it, start-up greyscales exactly when the background worker does |
| Content.InitOnWrongSite | content.js:8-19 | On `mywww.site.com` with `mysite.com` saved, start-up creates the element though the background worker does not greyscale the page |
| Content.InitIntensity | content.js:64-72 | A change event on the synced area acts as start-up. On an enabled page the rule then carries the stored intensity, or 100; a stored null is printed as `null` |
| Content.OnStorageChanged | content.js:64-72 | After a change to the synced area the element exists exactly when the stored sites enable the hostname, stripped as written, and carries the rule for the content script's reading of the intensity. Changes to other areas leave the page as it was |
| Content.StorageChangeAfterInit | content.js:64-72 | A change event that leaves the stored values as start-up read them changes nothing on the page |
| Content.OnMessage | content.js:55-61 | After an `updateGreyscale` message the element exists exactly when the sites it carries enable the hostname, stripped as written, and carries the rule for the intensity it carries. Other messages change nothing |
| Content.MessageLikeStorageChange | content.js:55-61 | A message carrying the stored sites and the content script's reading of the stored intensity acts exactly as a change event on the synced area |
| Content.BackgroundLeavesContentAlone | background.js:52-89 | The background worker's apply and remove keep the content script's state consistent and its element in place |
| Content.ContentLeavesBackgroundAlone | content.js:33-50 | The content script's apply and remove leave the background worker's filter state and its at-most-one element unchanged |
| Content.TwoElementsWhenBothApply | content.js:33-45 | When the content script, reading the hostname as written, and the background worker both greyscale a fresh page, it carries one element under each id, so "at most one rule" holds per id, not per page |

## Left out

- All host services are left out: storage reads, writes and change events; tab queries and tab events; script injection; navigation events; runtime messaging and `sendResponse`; console logging. Their data appears as inputs and outputs, as described above.
- The background worker's event listeners (tab updates, navigation, storage changes, and the `updateTab` and `updateAllTabs` messages) route events to `updateTab` and `updateAllTabs`. The `getSettings` message (background.js:180-185) is answered by `getSettings` (background.js:15-21), modelled as `Settings.Load`. All are modelled. The delayed retry through `setTimeout` only repeats an `updateTab` call, and `Background.UpdateTabIdempotent` covers a repetition.
- The popup's `debounce` (popup.js:10-26) only delays the intensity slider's storage write. It is left out with the slider.
- Popup rendering, toasts, the intensity slider and its parsing (`parseInt`) are presentation; they do not change the site list.
- URL parsing is an input: the hostname the parser yields, or None when it throws.
- `toLowerCase` and the domain pattern's case-insensitive flag are modelled on ASCII letters only. Unicode case mappings outside ASCII are not modelled.
- Popup.AddNewSite: the popup's `/\/.*$/` is modelled as a cut at the first `/`. A text input's value sanitisation strips LF and CR but keeps U+2028 and U+2029, and the pattern's `.` does not match them. So a `/` followed later by one of them is not removed: the pattern can only match from a later `/` past the last line separator, or not at all. The source then refuses the input as invalid, and the model accepts it: `a.com/x` + U+2028 + `y` is refused by the source and added as `a.com` by the model.
- Stored values of the wrong JSON type, such as a non-object site list or a string intensity, are left out. Values that are not integers are left out too.
- Strings.IntToText: intensities are JavaScript numbers. Only magnitudes below 10^21 print as plain digits, and integers beyond 2^53 are not stored exactly. The model prints every integer as plain digits.
- Popup.ToggleSite: the site list is a plain JavaScript object, so inherited `Object.prototype` keys such as `constructor` read as present and truthy. `toggleSite` (popup.js:168-171) therefore takes its second branch for them and writes `enabled` onto the inherited object. For `constructor` that object is the `Object` function, and for `__proto__` it is `Object.prototype` itself. Neither saves a key, and the prototype is not replaced. Both are reachable through the current-site toggle on a host named that way. The model treats every key as an own key and inserts it.
- Background.UpdateAllTabs: each tab's update re-reads storage (background.js:103). The model gives every tab the same stored settings, so a write that lands during the sweep is not modelled.
- The content script's members require `Consistent`: they assume the page's own scripts never remove, move or duplicate the content script's element or reuse its id. Page scripts are not modelled.
- Content.OnMessage: a message whose `sites` field is missing is left out. There, `Object.keys(undefined)` throws.
- How the browser combines the two style elements' rules when both are present is left out. The model tracks the elements, not the cascade.

## Findings

| source | as written | input that shows it | evidently intended | confidence | as-written member | corrected member |
|---|---|---|---|---|---|---|
| content.js:19 | `hostname.replace('www.', '')` removes the first `www.` anywhere in the hostname | hostname `mywww.site.com` with `mysite.com` saved and enabled: the content script reads `mysite.com` and greyscales the page, while the background worker does not | remove only a leading `www.`, as the background worker (background.js:25) and the popup (popup.js:70) do | not executed | Content.UnanchoredStripGreyscalesWrongSite | Content.EnabledAgreesWithBackground |

The content script's entry points (`Init`, `OnStorageChanged`, `OnMessage`) follow the code as written, so the discrepancy shows up in them: `Content.InitOnWrongSite` exhibits it at start-up. The corrected strip is `Content.CurrentDomain`; `Content.EnabledAgreesWithBackground` states that with it the content script's verdict equals the background worker's on every hostname. That holds because both decisions apply the same anchored strip and the same match. The proof work for the corrected side is in `Content.ShouldApply` and `Background.IsDomainEnabled`, whose loops compute that same match for any key order. `Content.InitAgreesWithBackground` is about the strip as written: on the hostnames where the two strips agree, start-up already matches the background worker.

=== FILE: background.dfy ===
/** The background service worker: the domain matcher, the style it injects
    into or removes from a tab, the per-tab decision, and the sweep over all
    open tabs. Script injection, tab enumeration and URL parsing are host
    services; they appear as inputs (the page a script would run on, whether
    the host lets the script run, the hostname the URL parser yields). */
module Background {
  import opened Wrappers
  import opened Strings
  import opened Css
  import opened Sites
  import opened Settings
  import opened Dom

  /** The id of the style element the background worker injects. */
  const StyleId := "greyscale-web-extension"

  // ---------------------------------------------------------------------------
  // the matcher

  /** `isDomainEnabled`: strips one leading `www.`, then walks the saved keys
      in enumeration order and answers true at the first enabled key the
      domain equals or is a subdomain of. `keys` is the order `Object.keys`
      enumerates the site list in; any order gives the same answer. */
  method IsDomainEnabled(hostname: string, sites: SiteConfig, keys: seq<string>) returns (r: bool)
    requires forall k :: k in sites <==> k in keys
    ensures r <==> HostEnabled(hostname, sites)
  {
    var domain := StripLeadingWww(hostname);
    var i := 0;
    while i < |keys|
      invariant 0 <= i <= |keys|
      invariant forall j :: 0 <= j < i ==> !(sites[keys[j]].enabled && Matches(domain, keys[j]))
    {
      var saved := keys[i];
      if sites[saved].enabled {
        if domain == saved || EndsWith(domain, "." + saved) {
          return true;
        }
      }
      i := i + 1;
    }
    assert forall k :: k in sites ==> exists j :: 0 <= j < |keys| && keys[j] == k;
    return false;
  }

  // ---------------------------------------------------------------------------
  // the injected style, as transitions of the page

  /** The text the injected function gives the style element. */
  function InjectedCss(intensity: int): string {
    GreyscaleCss(InjectedIndent, IntToText(intensity))
  }

  /** The injected apply function: remove the element `getElementById` finds
      under the fixed id, then append a fresh one with the rule. */
  function ApplyStyle(p: Page, intensity: int): (r: Page)
    ensures CountId(r.styles, StyleId) == if CountId(p.styles, StyleId) == 0 then 1 else CountId(p.styles, StyleId)
    ensures Others(r.styles, StyleId) == Others(p.styles, StyleId)
    ensures WellFormed(p) ==> WellFormed(r)
    ensures CountId(p.styles, StyleId) <= 1 ==>
      FirstWithId(r.styles, StyleId) == Some(StyleElement(p.nextUid, StyleId, InjectedCss(intensity)))
  {
    ReplaceById(p, StyleId, InjectedCss(intensity))
  }

  /** The injected remove function: remove the element `getElementById`
      finds under the fixed id, if there is one. */
  function RemoveStyle(p: Page): (r: Page)
    ensures CountId(r.styles, StyleId) == if CountId(p.styles, StyleId) == 0 then 0 else CountId(p.styles, StyleId) - 1
    ensures Others(r.styles, StyleId) == Others(p.styles, StyleId)
    ensures CountId(p.styles, StyleId) == 0 ==> r == p
    ensures WellFormed(p) ==> WellFormed(r)
  {
    var kept := RemoveFirstWithId(p.styles, StyleId);
    SubTreeWellFormed(p, kept);
    Page(kept, p.nextUid)
  }

  /** The page seen as the two-state machine `NoFilter` / `Filtered`: no
      filter, or filtered at an intensity read back from the style text. A page that
      already carried a foreign element under the fixed id before the
      extension touched it shows as unrecognised. */
  datatype FilterState = NoFilter | Filtered(intensity: int) | Unrecognised

  function View(p: Page): FilterState {
    match FirstWithId(p.styles, StyleId)
    case None => NoFilter
    case Some(e) =>
      match IntensityOf(InjectedIndent, e.text)
      case Some(i) => Filtered(i)
      case None => Unrecognised
  }

  /** At most one element carries the background worker's id. */
  predicate AtMostOne(p: Page) {
    CountId(p.styles, StyleId) <= 1
  }

  /** After an apply the page is filtered at the applied intensity, with
      exactly one element under the fixed id. */
  lemma ApplyThenView(p: Page, intensity: int)
    requires AtMostOne(p)
    ensures CountId(ApplyStyle(p, intensity).styles, StyleId) == 1
    ensures View(ApplyStyle(p, intensity)) == Filtered(intensity)
  {
    IntensityRoundTrip(InjectedIndent, intensity);
  }

  /** Applying twice, with any two intensities, leaves exactly one element
      under the fixed id, showing the intensity applied last. */
  lemma ApplyTwice(p: Page, first: int, second: int)
    requires AtMostOne(p)
    ensures CountId(ApplyStyle(ApplyStyle(p, first), second).styles, StyleId) == 1
    ensures View(ApplyStyle(ApplyStyle(p, first), second)) == Filtered(second)
  {
    ApplyThenView(p, first);
    ApplyThenView(ApplyStyle(p, first), second);
  }

  /** Removing leaves no element under the fixed id, touches no other
      element, and doing it again changes nothing. */
  lemma RemoveIdempotent(p: Page)
    requires AtMostOne(p)
    ensures CountId(RemoveStyle(p).styles, StyleId) == 0
    ensures View(RemoveStyle(p)) == NoFilter
    ensures RemoveStyle(RemoveStyle(p)) == RemoveStyle(p)
  {
  }

  // ---------------------------------------------------------------------------
  // the per-tab decision

  datatype Action = Skip | Apply(intensity: int) | Remove

  /** `updateTab`'s decision. `url` is None when the caller passed no URL;
      `host` is None when the URL parser threw (caught and ignored). */
  function Decide(url: Option<string>, host: Option<string>, s: Settings): (a: Action)
    ensures a.Skip? <==> url.None? || !StartsWith(url.value, "http") || host.None?
    ensures a.Apply? <==> !a.Skip? && HostEnabled(host.value, s.sites)
    ensures a.Apply? ==> a.intensity == s.intensity
  {
    if url.None? || url.value == "" || !StartsWith(url.value, "http") then Skip
    else
      match host
      case None => Skip
      case Some(h) => if HostEnabled(h, s.sites) then Apply(s.intensity) else Remove
  }

  /** Runs the chosen injection. When the host refuses to inject (a
      restricted page, a closed tab) the failure is caught and the page is
      left as it was. */
  function Perform(a: Action, p: Page, injectable: bool): (r: Page)
    ensures !injectable || a.Skip? ==> r == p
    ensures AtMostOne(p) ==> AtMostOne(r)
  {
    if !injectable then p
    else
      match a
      case Skip => p
      case Apply(i) => ApplyStyle(p, i)
      case Remove => RemoveStyle(p)
  }

  /** An injection that runs leaves the page in the state its action asks
      for: filtered at the applied intensity, or unfiltered. */
  lemma PerformOutcome(a: Action, p: Page)
    requires AtMostOne(p)
    ensures a.Apply? ==> View(Perform(a, p, true)) == Filtered(a.intensity)
    ensures a.Remove? ==> View(Perform(a, p, true)) == NoFilter
  {
    if a.Apply? {
      ApplyThenView(p, a.intensity);
    }
  }

  /** `updateTab(tabId, url)` on the tab's page, with settings read fresh. */
  function UpdateTab(url: Option<string>, host: Option<string>, st: StoredSettings, p: Page, injectable: bool): (r: Page)
    ensures url.None? || !StartsWith(url.value, "http") ==> r == p
    ensures host.None? || !injectable ==> r == p
    ensures AtMostOne(p) ==> AtMostOne(r)
    ensures WellFormed(p) ==> WellFormed(r)
    ensures AtMostOne(p) && injectable && url.Some? && StartsWith(url.value, "http") && host.Some? ==>
      View(r) == if HostEnabled(host.value, Load(st).sites) then Filtered(Load(st).intensity) else NoFilter
  {
    var a := Decide(url, host, Load(st));
    var r := Perform(a, p, injectable);
    assert AtMostOne(p) && injectable && a.Apply? ==> View(r) == Filtered(a.intensity) by {
      if AtMostOne(p) && injectable && a.Apply? {
        ApplyThenView(p, a.intensity);
      }
    }
    r
  }

  /** Repeating an update with unchanged settings and URL leaves the filter
      state as the first update left it, with no duplicate element. */
  lemma UpdateTabIdempotent(url: Option<string>, host: Option<string>, st: StoredSettings, p: Page, injectable: bool)
    requires AtMostOne(p)
    ensures var once := UpdateTab(url, host, st, p, injectable);
      var twice := UpdateTab(url, host, st, once, injectable);
      View(twice) == View(once) && AtMostOne(twice)
  {
    var once := UpdateTab(url, host, st, p, injectable);
    var a := Decide(url, host, Load(st));
    if injectable && a.Apply? {
      ApplyThenView(p, a.intensity);
      ApplyThenView(once, a.intensity);
    }
  }

  // ---------------------------------------------------------------------------
  // all tabs

  /** An open tab as the enumeration reports it, with the page it shows.
      `injectable` says whether the host lets scripts run on that page. */
  datatype Tab = Tab(id: Option<int>, url: Option<string>, page: Page, injectable: bool)

  /** `tab.id && tab.url`: a present, non-zero id and a present, non-empty URL. */
  predicate Visited(t: Tab) {
    t.id.Some? && t.id.value != 0 && t.url.Some? && t.url.value != ""
  }

  /** The ids of the tabs `updateAllTabs` visits, in enumeration order. */
  function VisitOrder(tabs: seq<Tab>): seq<int> {
    if tabs == [] then []
    else
      var last := tabs[|tabs| - 1];
      VisitOrder(tabs[..|tabs| - 1]) + (if Visited(last) then [last.id.value] else [])
  }

  /** The visit order lists exactly the ids of the visited tabs. */
  lemma {:induction false} VisitOrderMembers(tabs: seq<Tab>, x: int)
    ensures x in VisitOrder(tabs) <==> exists i :: 0 <= i < |tabs| && Visited(tabs[i]) && tabs[i].id.value == x
  {
    if tabs != [] {
      var init := tabs[..|tabs| - 1];
      VisitOrderMembers(init, x);
      assert forall i :: 0 <= i < |init| ==> init[i] == tabs[i];
    }
  }

  /** The visit order keeps the enumeration order and skips exactly the
      tabs without a usable id or URL. */
  lemma {:induction false} VisitOrderLength(tabs: seq<Tab>)
    ensures |VisitOrder(tabs)| <= |tabs|
    ensures (forall i :: 0 <= i < |tabs| ==> Visited(tabs[i])) ==> |VisitOrder(tabs)| == |tabs|
    ensures (forall i :: 0 <= i < |tabs| ==> !Visited(tabs[i])) ==> VisitOrder(tabs) == []
  {
    if tabs != [] {
      var init := tabs[..|tabs| - 1];
      assert forall i :: 0 <= i < |init| ==> init[i] == tabs[i];
      VisitOrderLength(init);
    }
  }

  /** What `updateAllTabs` does to one enumerated tab. */
  function Step(t: Tab, st: StoredSettings, hostOf: string -> Option<string>): Tab {
    if Visited(t) then t.(page := UpdateTab(t.url, hostOf(t.url.value), st, t.page, t.injectable)) else t
  }

  /** `updateAllTabs`: walks the enumerated tabs in order and updates each
      visited one with the same stored settings; the others are skipped. */
  method UpdateAllTabs(tabs: seq<Tab>, st: StoredSettings, hostOf: string -> Option<string>)
      returns (visited: seq<int>, after: seq<Tab>)
    ensures visited == VisitOrder(tabs)
    ensures |after| == |tabs|
    ensures forall i :: 0 <= i < |tabs| && !Visited(tabs[i]) ==> after[i] == tabs[i]
    ensures forall i :: 0 <= i < |tabs| ==> after[i] == Step(tabs[i], st, hostOf)
  {
    visited := [];
    after := [];
    var i := 0;
    while i < |tabs|
      invariant 0 <= i <= |tabs|
      invariant visited == VisitOrder(tabs[..i])
      invariant |after| == i
      invariant forall j :: 0 <= j < i ==> after[j] == Step(tabs[j], st, hostOf)
    {
      var tab := tabs[i];
      assert tabs[..i + 1][..i] == tabs[..i];
      if tab.id.Some? && tab.id.value != 0 && tab.url.Some? && tab.url.value != "" {
        var page := UpdateTab(tab.url, hostOf(tab.url.value), st, tab.page, tab.injectable);
        visited := visited + [tab.id.value];
        after := after + [tab.(page := page)];
      } else {
        after := after + [tab];
      }
      i := i + 1;
    }
    assert tabs[..i] == tabs;
  }
}

=== FILE: content.dfy ===
/** The content script: one instance per page, holding a reference to the
    style element it created (`styleElement`, here the element's identity or
    None). It decides from the page's hostname and the site list whether the
    page is greyscaled, and creates, rewrites or removes its own element. */
module Content {
  import opened Wrappers
  import opened Strings
  import opened Css
  import opened Sites
  import opened Settings
  import opened Dom
  import Background

  /** The id of the style element the content script creates. */
  const ContentStyleId := "greyscale-extension-style"

  /** The page together with the script's `styleElement` variable. */
  datatype ContentState = ContentState(page: Page, styleRef: Option<nat>)

  /** The script's own element and its reference agree: no element under the
      content id and no reference, or exactly one element under the content
      id and the reference names it. */
  predicate Consistent(cs: ContentState) {
    && WellFormed(cs.page)
    && (cs.styleRef.None? ==> CountId(cs.page.styles, ContentStyleId) == 0)
    && (cs.styleRef.Some? ==>
          && CountId(cs.page.styles, ContentStyleId) == 1
          && forall i :: 0 <= i < |cs.page.styles| ==>
               (cs.page.styles[i].id == ContentStyleId <==> cs.page.styles[i].uid == cs.styleRef.value))
  }

  /** The page as a fresh content script finds it. */
  predicate Fresh(cs: ContentState) {
    cs.styleRef.None? && WellFormed(cs.page) && CountId(cs.page.styles, ContentStyleId) == 0
  }

  // ---------------------------------------------------------------------------
  // the current domain

  /** `hostname.replace('www.', '')`: a string pattern, so the first `www.`
      anywhere in the hostname is removed. The content script's entry points
      below are modelled with this strip, as the code is written. */
  function CurrentDomainAsWritten(hostname: string): string {
    RemoveFirst(hostname, WwwPrefix)
  }

  /** The anchored strip the background worker and the popup use: only a
      leading `www.` is removed. This is the corrected strip for the content
      script; `EnabledAgreesWithBackground` states what it achieves. */
  function CurrentDomain(hostname: string): string {
    StripLeadingWww(hostname)
  }

  /** The two strips agree on every hostname that starts with `www.` or does
      not contain `www.` at all. */
  lemma StripsAgree(hostname: string)
    requires StartsWith(hostname, WwwPrefix) || forall j: nat :: !OccursAt(hostname, WwwPrefix, j)
    ensures CurrentDomainAsWritten(hostname) == CurrentDomain(hostname)
  {
    if StartsWith(hostname, WwwPrefix) {
      RemoveFirstAtStart(hostname, WwwPrefix);
    } else {
      RemoveFirstAbsent(hostname, WwwPrefix);
    }
  }

  /** The content script's decision, as written. */
  predicate EnabledAsWritten(hostname: string, sites: SiteConfig) {
    AnyEnabledMatch(CurrentDomainAsWritten(hostname), sites)
  }

  /** The corrected decision, with the anchored strip. */
  predicate Enabled(hostname: string, sites: SiteConfig) {
    AnyEnabledMatch(CurrentDomain(hostname), sites)
  }

  /** With the anchored strip the content script and the background worker
      reach the same verdict for every hostname and site list. */
  lemma EnabledAgreesWithBackground(hostname: string, sites: SiteConfig)
    ensures Enabled(hostname, sites) <==> HostEnabled(hostname, sites)
  {
  }

  /** As written, a `www.` inside the hostname is cut out: `mywww.site.com`
      becomes `mysite.com`, which a saved `mysite.com` greyscales although
      the background worker leaves the page alone. */
  lemma UnanchoredStripGreyscalesWrongSite()
    ensures CurrentDomainAsWritten("mywww.site.com") == "mysite.com"
    ensures EnabledAsWritten("mywww.site.com", map["mysite.com" := SiteEntry(true)])
    ensures !HostEnabled("mywww.site.com", map["mysite.com" := SiteEntry(true)])
  {
    var h := "mywww.site.com";
    var sites := map["mysite.com" := SiteEntry(true)];
    assert OccursAt(h, WwwPrefix, 2) by { assert h[2..6] == WwwPrefix; }
    assert !OccursAt(h, WwwPrefix, 0) by { assert h[0] == 'm'; }
    assert !OccursAt(h, WwwPrefix, 1) by { assert h[1] == 'y'; }
    assert IndexOf(h, WwwPrefix) == Some(2);
    assert CurrentDomainAsWritten(h) == h[..2] + h[6..];
    assert h[..2] + h[6..] == "mysite.com";
    assert Matches("mysite.com", "mysite.com");
    assert "mysite.com" in sites && sites["mysite.com"].enabled;
    assert !StartsWith(h, WwwPrefix) by { assert h[0] == 'm'; }
    assert StripLeadingWww(h) == h;
    assert !Matches(h, "mysite.com") by {
      assert h[3..][0] == 'w';
    }
    assert forall k :: EnabledKey(sites, k) ==> k == "mysite.com";
  }

  /** And the other way round: a saved `awww.b.com` greyscales that host in
      the background worker, but the content script as written looks for
      `ab.com`. */
  lemma UnanchoredStripMissesSavedSite()
    ensures CurrentDomainAsWritten("awww.b.com") == "ab.com"
    ensures HostEnabled("awww.b.com", map["awww.b.com" := SiteEntry(true)])
    ensures !EnabledAsWritten("awww.b.com", map["awww.b.com" := SiteEntry(true)])
  {
    var h := "awww.b.com";
    var sites := map[h := SiteEntry(true)];
    assert OccursAt(h, WwwPrefix, 1) by { assert h[1..5] == WwwPrefix; }
    assert !OccursAt(h, WwwPrefix, 0) by { assert h[0] == 'a' && h[1] == 'w'; }
    assert IndexOf(h, WwwPrefix) == Some(1);
    assert CurrentDomainAsWritten(h) == h[..1] + h[5..];
    assert h[..1] + h[5..] == "ab.com";
    assert !StartsWith(h, WwwPrefix) by { assert h[0] == 'a'; }
    assert Matches(StripLeadingWww(h), h);
    assert EnabledKey(sites, h);
    assert !Matches("ab.com", h);
    assert forall k :: EnabledKey(sites, k) ==> k == h;
  }

  // ---------------------------------------------------------------------------
  // the decision loop

  /** The loop of `applyGreyscale`: walks the saved keys in enumeration
      order, tests the match first and the flag second, and stops at the
      first enabled match. `keys` is the order `Object.keys` enumerates the
      site list in. */
  method ShouldApply(currentDomain: string, sites: SiteConfig, keys: seq<string>) returns (r: bool)
    requires forall k :: k in sites <==> k in keys
    ensures r <==> AnyEnabledMatch(currentDomain, sites)
  {
    r := false;
    var i := 0;
    while i < |keys|
      invariant 0 <= i <= |keys|
      invariant !r
      invariant forall j :: 0 <= j < i ==> !(sites[keys[j]].enabled && Matches(currentDomain, keys[j]))
    {
      var domain := keys[i];
      if currentDomain == domain || EndsWith(currentDomain, "." + domain) {
        if sites[domain].enabled {
          r := true;
          break;
        }
      }
      i := i + 1;
    }
    if !r {
      assert forall k :: k in sites ==> exists j :: 0 <= j < |keys| && keys[j] == k;
    }
  }

  // ---------------------------------------------------------------------------
  // applying and removing the style element

  /** What `${intensity}` prints: the decimal text of a number, `null` for a
      stored null, `undefined` for a missing value. */
  function IntensityText(intensity: Stored<int>): (t: string)
    ensures Lacks(t, '%')
  {
    match intensity
    case Present(n) => IntToText(n)
    case Null => "null"
    case Missing => "undefined"
  }

  /** The style text the content script writes. */
  function ContentCss(intensity: Stored<int>): string {
    GreyscaleCss(ContentIndent, IntensityText(intensity))
  }

  /** The style rule reads back the intensity it was written with, and
      reads back nothing when the intensity was null or missing. */
  lemma ContentCssReadsBack(intensity: Stored<int>)
    ensures PercentText(ContentIndent, ContentCss(intensity)) == Some(IntensityText(intensity))
    ensures intensity.Present? ==> IntensityOf(ContentIndent, ContentCss(intensity)) == Some(intensity.value)
    ensures !intensity.Present? ==> IntensityOf(ContentIndent, ContentCss(intensity)) == None
    ensures intensity.Missing? ==> PercentText(ContentIndent, ContentCss(intensity)) == Some("undefined")
  {
    PercentTextRoundTrip(ContentIndent, IntensityText(intensity));
    if intensity.Present? {
      IntensityRoundTrip(ContentIndent, intensity.value);
    } else {
      var t := IntensityText(intensity);
      assert t[0] == 'n' || t[0] == 'u';
      assert !IsDigit(t[0]);
    }
  }

  /** `document.createElement('style')`, its id, and `appendChild` to the
      root, remembered in `styleElement`. */
  function CreateStyle(cs: ContentState): (r: ContentState)
    requires Consistent(cs) && cs.styleRef.None?
    ensures Consistent(r) && r.styleRef == Some(cs.page.nextUid)
    ensures Others(r.page.styles, ContentStyleId) == Others(cs.page.styles, ContentStyleId)
  {
    CreatedConsistent(cs.page);
    ContentState(AppendNew(cs.page, ContentStyleId, ""), Some(cs.page.nextUid))
  }

  /** `styleElement.textContent = ...` on the remembered element. */
  function WriteText(cs: ContentState, text: string): (r: ContentState)
    requires Consistent(cs) && cs.styleRef.Some?
    ensures Consistent(r) && r.styleRef == cs.styleRef
    ensures FirstWithId(r.page.styles, ContentStyleId) == Some(StyleElement(cs.styleRef.value, ContentStyleId, text))
    ensures Others(r.page.styles, ContentStyleId) == Others(cs.page.styles, ContentStyleId)
  {
    var u := cs.styleRef.value;
    SetTextStyle(cs.page.styles, u, text);
    SetTextWellFormed(cs.page, u, text);
    ContentState(Page(SetText(cs.page.styles, u, text), cs.page.nextUid), cs.styleRef)
  }

  /** Writing the text the element already has changes nothing. */
  lemma WriteSameText(cs: ContentState, text: string)
    requires Consistent(cs) && cs.styleRef.Some?
    requires FirstWithId(cs.page.styles, ContentStyleId) == Some(StyleElement(cs.styleRef.value, ContentStyleId, text))
    ensures WriteText(cs, text) == cs
  {
    var u := cs.styleRef.value;
    var s := cs.page.styles;
    var t := SetText(s, u, text);
    forall i | 0 <= i < |s|
      ensures t[i] == s[i]
    {
      if s[i].uid == u {
        OnlyOneUnder(s, u, i);
      }
    }
    assert t == s;
  }

  /** The `shouldApply` branch: create the element when there is none, then
      set its text. */
  function ApplyStyle(cs: ContentState, intensity: Stored<int>): (r: ContentState)
    requires Consistent(cs)
    ensures Consistent(r)
    ensures r.styleRef.Some?
    ensures cs.styleRef.Some? ==> r.styleRef == cs.styleRef
    ensures FirstWithId(r.page.styles, ContentStyleId) == Some(StyleElement(r.styleRef.value, ContentStyleId, ContentCss(intensity)))
    ensures Others(r.page.styles, ContentStyleId) == Others(cs.page.styles, ContentStyleId)
  {
    var target := if cs.styleRef.Some? then cs else CreateStyle(cs);
    WriteText(target, ContentCss(intensity))
  }

  /** Appending the element to a page without one gives a consistent state
      that refers to it. */
  lemma CreatedConsistent(p: Page)
    requires WellFormed(p) && CountId(p.styles, ContentStyleId) == 0
    ensures var c := AppendNew(p, ContentStyleId, "");
      Consistent(ContentState(c, Some(p.nextUid)))
    ensures Others(AppendNew(p, ContentStyleId, "").styles, ContentStyleId) == Others(p.styles, ContentStyleId)
  {
    var e := StyleElement(p.nextUid, ContentStyleId, "");
    CountIdAppend(p.styles, [e], ContentStyleId);
    OthersAppend(p.styles, [e], ContentStyleId);
    assert Others([e], ContentStyleId) == [];
    var s := p.styles + [e];
    forall i | 0 <= i < |s|
      ensures s[i].id == ContentStyleId <==> s[i].uid == p.nextUid
    {
      if i < |p.styles| {
        assert s[i] in p.styles;
      }
    }
  }

  /** Setting the text of the referenced element keeps the state consistent
      and makes that element the one `getElementById` finds. */
  lemma SetTextStyle(s: seq<StyleElement>, u: nat, text: string)
    requires CountId(s, ContentStyleId) == 1
    requires forall i :: 0 <= i < |s| ==> (s[i].id == ContentStyleId <==> s[i].uid == u)
    ensures var r := SetText(s, u, text);
      && CountId(r, ContentStyleId) == 1
      && (forall i :: 0 <= i < |r| ==> (r[i].id == ContentStyleId <==> r[i].uid == u))
      && FirstWithId(r, ContentStyleId) == Some(StyleElement(u, ContentStyleId, text))
      && Others(r, ContentStyleId) == Others(s, ContentStyleId)
  {
    SetTextKeepsCount(s, u, text, ContentStyleId);
    SetTextKeepsOthers(s, u, text, ContentStyleId);
    FirstSetText(s, u, text);
  }

  lemma {:induction false} FirstSetText(s: seq<StyleElement>, u: nat, text: string)
    requires CountId(s, ContentStyleId) > 0
    requires forall i :: 0 <= i < |s| ==> (s[i].id == ContentStyleId <==> s[i].uid == u)
    ensures FirstWithId(SetText(s, u, text), ContentStyleId) == Some(StyleElement(u, ContentStyleId, text))
  {
    var r := SetText(s, u, text);
    if s[0].id != ContentStyleId {
      assert r[1..] == SetText(s[1..], u, text);
      FirstSetText(s[1..], u, text);
    }
  }

  /** Setting the text of an element keeps every identity on the page. */
  lemma SetTextWellFormed(p: Page, u: nat, text: string)
    requires WellFormed(p)
    ensures WellFormed(Page(SetText(p.styles, u, text), p.nextUid))
  {
    var r := SetText(p.styles, u, text);
    forall e | e in r
      ensures e.uid < p.nextUid
    {
      var i :| 0 <= i < |r| && r[i] == e;
      assert p.styles[i] in p.styles;
    }
  }

  /** The other branch: remove the element if there is one, and forget it. */
  function RemoveStyle(cs: ContentState): (r: ContentState)
    requires Consistent(cs)
    ensures Consistent(r)
    ensures r.styleRef.None?
    ensures CountId(r.page.styles, ContentStyleId) == 0
    ensures cs.styleRef.None? ==> r == cs
    ensures Others(r.page.styles, ContentStyleId) == Others(cs.page.styles, ContentStyleId)
  {
    match cs.styleRef
    case None => cs
    case Some(u) =>
      var styles := RemoveUid(cs.page.styles, u);
      RemovedConsistent(cs.page, u);
      ContentState(Page(styles, cs.page.nextUid), None)
  }

  lemma RemovedConsistent(p: Page, u: nat)
    requires WellFormed(p)
    requires forall i :: 0 <= i < |p.styles| ==> (p.styles[i].id == ContentStyleId <==> p.styles[i].uid == u)
    ensures WellFormed(Page(RemoveUid(p.styles, u), p.nextUid))
    ensures CountId(RemoveUid(p.styles, u), ContentStyleId) == 0
    ensures Others(RemoveUid(p.styles, u), ContentStyleId) == Others(p.styles, ContentStyleId)
  {
    var r := RemoveUid(p.styles, u);
    forall e | e in r
      ensures e.id != ContentStyleId
    {
      var i :| 0 <= i < |p.styles| && p.styles[i] == e;
    }
    RemoveUidKeepsOthers(p.styles, u, ContentStyleId);
  }

  /** `applyGreyscale(sites, intensity)` on the page with hostname
      `hostname`, deciding with the strip as written. */
  function ApplyGreyscale(cs: ContentState, hostname: string, sites: SiteConfig, intensity: Stored<int>): (r: ContentState)
    requires Consistent(cs)
    ensures Consistent(r)
    ensures r.styleRef.Some? <==> EnabledAsWritten(hostname, sites)
    ensures EnabledAsWritten(hostname, sites) ==>
      FirstWithId(r.page.styles, ContentStyleId) == Some(StyleElement(r.styleRef.value, ContentStyleId, ContentCss(intensity)))
    ensures !EnabledAsWritten(hostname, sites) ==> CountId(r.page.styles, ContentStyleId) == 0
    ensures Others(r.page.styles, ContentStyleId) == Others(cs.page.styles, ContentStyleId)
  {
    if EnabledAsWritten(hostname, sites) then ApplyStyle(cs, intensity) else RemoveStyle(cs)
  }

  /** Running `applyGreyscale` again with the same arguments changes nothing:
      the element is reused, never duplicated. */
  lemma ApplyGreyscaleIdempotent(cs: ContentState, hostname: string, sites: SiteConfig, intensity: Stored<int>)
    requires Consistent(cs)
    ensures var once := ApplyGreyscale(cs, hostname, sites, intensity);
      ApplyGreyscale(once, hostname, sites, intensity) == once
  {
    if EnabledAsWritten(hostname, sites) {
      WriteSameText(ApplyStyle(cs, intensity), ContentCss(intensity));
    }
  }

  /** In a consistent state, the element under the content id is the one
      `getElementById` finds. */
  lemma OnlyOneUnder(s: seq<StyleElement>, u: nat, i: nat)
    requires forall j :: 0 <= j < |s| ==> (s[j].id == ContentStyleId <==> s[j].uid == u)
    requires CountId(s, ContentStyleId) == 1
    requires i < |s| && s[i].id == ContentStyleId
    ensures FirstWithId(s, ContentStyleId) == Some(s[i])
  {
    CountOne(s, i);
  }

  lemma {:induction false} CountOne(s: seq<StyleElement>, i: nat)
    requires CountId(s, ContentStyleId) == 1
    requires i < |s| && s[i].id == ContentStyleId
    ensures FirstWithId(s, ContentStyleId) == Some(s[i])
  {
    if s[0].id != ContentStyleId {
      CountOne(s[1..], i - 1);
    }
  }

  // ---------------------------------------------------------------------------
  // the entry points

  /** `init`: read storage with the content script's defaulting and apply. */
  function Init(cs: ContentState, hostname: string, st: StoredSettings): (r: ContentState)
    requires Consistent(cs)
    ensures Consistent(r)
    ensures r.styleRef.Some? <==> EnabledAsWritten(hostname, Load(st).sites)
    ensures r.styleRef.Some? ==>
      FirstWithId(r.page.styles, ContentStyleId) == Some(StyleElement(r.styleRef.value, ContentStyleId, ContentCss(ContentLoad(st).intensity)))
    ensures r.styleRef.None? ==> CountId(r.page.styles, ContentStyleId) == 0
  {
    var c := ContentLoad(st);
    ApplyGreyscale(cs, hostname, c.sites, c.intensity)
  }

  /** On every hostname where the two strips agree, start-up greyscales the
      page exactly when the background worker does. */
  lemma InitAgreesWithBackground(cs: ContentState, hostname: string, st: StoredSettings)
    requires Consistent(cs)
    requires StartsWith(hostname, WwwPrefix) || forall j: nat :: !OccursAt(hostname, WwwPrefix, j)
    ensures Init(cs, hostname, st).styleRef.Some? <==> HostEnabled(hostname, Load(st).sites)
  {
    StripsAgree(hostname);
  }

  /** On `mywww.site.com` with `mysite.com` saved, start-up creates the
      content script's element although the background worker leaves the
      page alone. */
  lemma InitOnWrongSite(p: Page)
    requires WellFormed(p) && CountId(p.styles, ContentStyleId) == 0
    ensures var st := StoredSettings(Present(map["mysite.com" := SiteEntry(true)]), Missing);
      && Init(ContentState(p, None), "mywww.site.com", st).styleRef.Some?
      && !HostEnabled("mywww.site.com", Load(st).sites)
  {
    UnanchoredStripGreyscalesWrongSite();
  }

  /** The storage listener: on a change to the synced area it reads storage
      with the content script's defaulting and applies; changes to other
      areas are ignored. */
  function OnStorageChanged(cs: ContentState, namespace: string, hostname: string, st: StoredSettings): (r: ContentState)
    requires Consistent(cs)
    ensures Consistent(r)
    ensures namespace != "sync" ==> r == cs
    ensures namespace == "sync" ==> (r.styleRef.Some? <==> EnabledAsWritten(hostname, Load(st).sites))
    ensures namespace == "sync" && r.styleRef.Some? ==>
      FirstWithId(r.page.styles, ContentStyleId) == Some(StyleElement(r.styleRef.value, ContentStyleId, ContentCss(ContentLoad(st).intensity)))
    ensures namespace == "sync" && r.styleRef.None? ==> CountId(r.page.styles, ContentStyleId) == 0
  {
    if namespace == "sync" then Init(cs, hostname, st) else cs
  }

  /** A change event after start-up that leaves the stored values as they
      were changes nothing on the page. */
  lemma StorageChangeAfterInit(cs: ContentState, hostname: string, st: StoredSettings)
    requires Consistent(cs)
    ensures var started := Init(cs, hostname, st);
      OnStorageChanged(started, "sync", hostname, st) == started
  {
    var c := ContentLoad(st);
    ApplyGreyscaleIdempotent(cs, hostname, c.sites, c.intensity);
  }

  /** The message listener: an `updateGreyscale` message applies the sites
      and intensity it carries, unread and undefaulted; any other message is
      ignored. */
  function OnMessage(cs: ContentState, action: string, hostname: string, sites: SiteConfig, intensity: Stored<int>): (r: ContentState)
    requires Consistent(cs)
    ensures Consistent(r)
    ensures action != "updateGreyscale" ==> r == cs
    ensures action == "updateGreyscale" ==> (r.styleRef.Some? <==> EnabledAsWritten(hostname, sites))
    ensures action == "updateGreyscale" && r.styleRef.Some? ==>
      FirstWithId(r.page.styles, ContentStyleId) == Some(StyleElement(r.styleRef.value, ContentStyleId, ContentCss(intensity)))
  {
    if action == "updateGreyscale" then ApplyGreyscale(cs, hostname, sites, intensity) else cs
  }

  /** A message carrying the stored site list and the content script's
      reading of the stored intensity has the same effect as a change event
      on the synced area. */
  lemma MessageLikeStorageChange(cs: ContentState, hostname: string, st: StoredSettings)
    requires Consistent(cs)
    ensures var c := ContentLoad(st);
      OnMessage(cs, "updateGreyscale", hostname, c.sites, c.intensity) == OnStorageChanged(cs, "sync", hostname, st)
  {
  }

  /** After start-up or a change event on an enabled page the rule carries
      the stored intensity, or 100 when none was stored; a stored null is
      printed as `null`, which reads back as no intensity at all. */
  lemma InitIntensity(cs: ContentState, hostname: string, st: StoredSettings)
    requires Consistent(cs)
    requires EnabledAsWritten(hostname, Load(st).sites)
    ensures var r := OnStorageChanged(cs, "sync", hostname, st);
      var e := FirstWithId(r.page.styles, ContentStyleId).value;
      && r == Init(cs, hostname, st)
      && (!st.intensity.Null? ==> IntensityOf(ContentIndent, e.text) == Some(Load(st).intensity))
      && (st.intensity.Null? ==> PercentText(ContentIndent, e.text) == Some("null"))
  {
    var c := ContentLoad(st);
    ContentCssReadsBack(c.intensity);
    IntensityReadingsAgree(st);
  }

  // ---------------------------------------------------------------------------
  // living next to the background worker's element

  /** The background worker's apply and remove touch only elements under
      its own id: the content script's state stays consistent and its
      element is still the one `getElementById` finds. */
  lemma BackgroundLeavesContentAlone(cs: ContentState, intensity: int)
    requires Consistent(cs)
    ensures var a := cs.(page := Background.ApplyStyle(cs.page, intensity));
      Consistent(a) && FirstWithId(a.page.styles, ContentStyleId) == FirstWithId(cs.page.styles, ContentStyleId)
    ensures var d := cs.(page := Background.RemoveStyle(cs.page));
      Consistent(d) && FirstWithId(d.page.styles, ContentStyleId) == FirstWithId(cs.page.styles, ContentStyleId)
  {
    var p := cs.page;
    var a := Background.ApplyStyle(p, intensity);
    var d := Background.RemoveStyle(p);
    var id := Background.StyleId;
    CountIdOthers(p.styles, id, ContentStyleId);
    CountIdOthers(a.styles, id, ContentStyleId);
    CountIdOthers(d.styles, id, ContentStyleId);
    FirstWithIdOthers(p.styles, id, ContentStyleId);
    FirstWithIdOthers(a.styles, id, ContentStyleId);
    FirstWithIdOthers(d.styles, id, ContentStyleId);
    BackgroundAddsOnlyFresh(p, intensity);
    if cs.styleRef.Some? {
      SameContentElements(p, a, cs.styleRef.value);
      SameContentElements(p, d, cs.styleRef.value);
    }
  }

  /** The background worker's apply keeps old elements and adds at most one
      with a fresh identity; its remove only drops elements. */
  lemma BackgroundAddsOnlyFresh(p: Page, intensity: int)
    ensures forall e :: e in Background.ApplyStyle(p, intensity).styles ==> e in p.styles || e.uid == p.nextUid
    ensures forall e :: e in Background.RemoveStyle(p).styles ==> e in p.styles
  {
    var kept := RemoveFirstWithId(p.styles, Background.StyleId);
    assert Background.ApplyStyle(p, intensity).styles == kept + [StyleElement(p.nextUid, Background.StyleId, Background.InjectedCss(intensity))];
  }

  /** A page that keeps the elements outside the background worker's id and
      otherwise only adds fresh identities carries the content element of
      the page it came from, and no other element under the content id. */
  lemma SameContentElements(p: Page, q: Page, u: nat)
    requires WellFormed(p)
    requires Others(q.styles, Background.StyleId) == Others(p.styles, Background.StyleId)
    requires forall e :: e in q.styles ==> e in p.styles || e.uid == p.nextUid
    requires forall i :: 0 <= i < |p.styles| ==> (p.styles[i].id == ContentStyleId <==> p.styles[i].uid == u)
    requires CountId(p.styles, ContentStyleId) == 1
    ensures forall i :: 0 <= i < |q.styles| ==> (q.styles[i].id == ContentStyleId <==> q.styles[i].uid == u)
  {
    var first := FirstWithId(p.styles, ContentStyleId).value;
    var k :| 0 <= k < |p.styles| && p.styles[k] == first;
    assert u < p.nextUid;
    forall i | 0 <= i < |q.styles|
      ensures q.styles[i].id == ContentStyleId <==> q.styles[i].uid == u
    {
      var e := q.styles[i];
      if e in p.styles {
        var j :| 0 <= j < |p.styles| && p.styles[j] == e;
      } else {
        OthersMembers(q.styles, Background.StyleId, e);
        OthersMembers(p.styles, Background.StyleId, e);
      }
    }
  }

  /** The content script's apply and remove touch only elements under its
      own id: what the background worker's `View` reports is unchanged. */
  lemma ContentLeavesBackgroundAlone(cs: ContentState, hostname: string, sites: SiteConfig, intensity: Stored<int>)
    requires Consistent(cs)
    ensures Background.View(ApplyGreyscale(cs, hostname, sites, intensity).page) == Background.View(cs.page)
    ensures Background.AtMostOne(ApplyGreyscale(cs, hostname, sites, intensity).page) == Background.AtMostOne(cs.page)
  {
    var r := ApplyGreyscale(cs, hostname, sites, intensity);
    var id := Background.StyleId;
    FirstWithIdOthers(cs.page.styles, ContentStyleId, id);
    FirstWithIdOthers(r.page.styles, ContentStyleId, id);
    CountIdOthers(cs.page.styles, ContentStyleId, id);
    CountIdOthers(r.page.styles, ContentStyleId, id);
  }

  /** When both parts greyscale a page it carries two style elements, one
      under each id. */
  lemma TwoElementsWhenBothApply(cs: ContentState, hostname: string, sites: SiteConfig, intensity: Stored<int>, bgIntensity: int)
    requires Fresh(cs) && CountId(cs.page.styles, Background.StyleId) == 0
    requires EnabledAsWritten(hostname, sites)
    ensures var r := ApplyGreyscale(cs, hostname, sites, intensity);
      var both := Background.ApplyStyle(r.page, bgIntensity);
      CountId(both.styles, ContentStyleId) == 1 && CountId(both.styles, Background.StyleId) == 1
  {
    var r := ApplyGreyscale(cs, hostname, sites, intensity);
    var both := Background.ApplyStyle(r.page, bgIntensity);
    CountIdOthers(r.page.styles, Background.StyleId, ContentStyleId);
    CountIdOthers(both.styles, Background.StyleId, ContentStyleId);
    CountIdOthers(cs.page.styles, ContentStyleId, Background.StyleId);
    CountIdOthers(r.page.styles, ContentStyleId, Background.StyleId);
  }
}

=== FILE: css.dfy ===
/** The greyscale style rule. Every copy of it in the extension is the same
    template, differing only in indentation (it is written inline inside
    indented JavaScript):

        <newline><in>html {<newline>
        <in+2>filter: grayscale(<pct>%) !important;<newline>
        <in+2>-webkit-filter: grayscale(<pct>%) !important;<newline>
        <in>}<newline><out>

    where <out> is the indentation of the closing backtick and <in> = <out>+2. */
module Css {
  import opened Wrappers
  import opened Strings

  /** Indentation of the closing backtick of `getGreyscaleCSS`. */
  const HelperIndent: nat := 2
  /** Indentation of the closing backtick inside the function injected by
      the background worker. */
  const InjectedIndent: nat := 8
  /** Indentation of the closing backtick in the content script. */
  const ContentIndent: nat := 4

  function Spaces(n: nat): (r: string)
    ensures |r| == n && forall i :: 0 <= i < n ==> r[i] == ' '
  {
    seq(n, _ => ' ')
  }

  /** Everything up to and including the first `grayscale(`. */
  function Head(out: nat): string {
    "\n" + Spaces(out + 2) + "html {\n" + Spaces(out + 4) + "filter: grayscale("
  }

  /** Everything after the first percentage text: the `-webkit-filter`
      declaration carrying `pct` again, and the closing lines. */
  function Tail(out: nat, pct: string): string {
    Middle(out) + pct + Close(out)
  }

  /** Between the two percentage texts. */
  function Middle(out: nat): string {
    "%) !important;\n" + Spaces(out + 4) + "-webkit-filter: grayscale("
  }

  /** After the second percentage text. */
  function Close(out: nat): string {
    "%) !important;\n" + Spaces(out + 2) + "}\n" + Spaces(out)
  }

  /** The style text for the percentage text `pct`. */
  function GreyscaleCss(out: nat, pct: string): string {
    Head(out) + pct + Tail(out, pct)
  }

  /** `getGreyscaleCSS(intensity)`: the rule laid out at the helper's
      indentation. The background worker defines it but never calls it; the
      injected function builds its own copy of the rule. */
  function GetGreyscaleCss(intensity: int): (r: string)
    ensures IntensityOf(HelperIndent, r) == Some(intensity)
    ensures PercentText(HelperIndent, r) == Some(IntToText(intensity))
  {
    PercentTextRoundTrip(HelperIndent, IntToText(intensity));
    IntTextRoundTrip(intensity);
    GreyscaleCss(HelperIndent, IntToText(intensity))
  }

  /** Reads the percentage text back out of a style text laid out with
      indentation `out`: the text up to the first `%`, provided the whole
      style text is the rule carrying it in both declarations; None
      otherwise. */
  function PercentText(out: nat, css: string): (r: Option<string>)
    ensures r.Some? ==> css == GreyscaleCss(out, r.value)
    ensures !StartsWith(css, Head(out)) ==> r.None?
  {
    var h := Head(out);
    if StartsWith(css, h) then
      var p := Before(css[|h|..], '%');
      if css == GreyscaleCss(out, p) then Some(p) else None
    else None
  }

  /** A style text whose `-webkit-filter` declaration carries a different
      percentage from the `filter` declaration is not read as a rule. */
  lemma SplitRuleRejected(out: nat, p: string, q: string)
    requires Lacks(p, '%') && Lacks(q, '%') && p != q
    ensures PercentText(out, Head(out) + p + Tail(out, q)) == None
  {
    var css := Head(out) + p + Tail(out, q);
    var m := Middle(out);
    assert Tail(out, q)[0] == '%';
    PrefixThenCut(Head(out), p, Tail(out, q));
    if css == GreyscaleCss(out, p) {
      CancelPrefix(Head(out) + p, Tail(out, q), Tail(out, p));
      assert Close(out)[0] == '%';
      PrefixThenCut(m, q, Close(out));
      PrefixThenCut(m, p, Close(out));
      assert false;
    }
  }

  lemma CancelPrefix(a: string, b: string, c: string)
    requires a + b == a + c
    ensures b == c
  {
    assert b == (a + b)[|a|..];
    assert c == (a + c)[|a|..];
  }

  /** Reads the intensity back out of a style text. */
  function IntensityOf(out: nat, css: string): Option<int> {
    match PercentText(out, css)
    case None => None
    case Some(p) => TextToInt(p)
  }

  lemma PercentTextRoundTrip(out: nat, pct: string)
    requires Lacks(pct, '%')
    ensures PercentText(out, GreyscaleCss(out, pct)) == Some(pct)
  {
    var t := Tail(out, pct);
    assert t[0] == '%';
    PrefixThenCut(Head(out), pct, t);
  }

  /** Text laid out as `h`, then `pct`, then something starting with `%`,
      starts with `h` and yields `pct` when cut at the first `%` after it. */
  lemma PrefixThenCut(h: string, pct: string, t: string)
    requires Lacks(pct, '%') && |t| > 0 && t[0] == '%'
    ensures StartsWith(h + pct + t, h)
    ensures Before((h + pct + t)[|h|..], '%') == pct
  {
    var css := h + pct + t;
    assert css[..|h|] == h;
    assert css[|h|..] == pct + ['%'] + t[1..];
    BeforeAppend(pct, '%', t[1..]);
  }

  /** The style text encodes its intensity: reading it back gives exactly the
      intensity it was built from. */
  lemma IntensityRoundTrip(out: nat, intensity: int)
    ensures IntensityOf(out, GreyscaleCss(out, IntToText(intensity))) == Some(intensity)
  {
    PercentTextRoundTrip(out, IntToText(intensity));
    IntTextRoundTrip(intensity);
  }

  /** Two intensities give the same style text only when they are equal. */
  lemma GreyscaleCssInjective(out: nat, a: int, b: int)
    requires GreyscaleCss(out, IntToText(a)) == GreyscaleCss(out, IntToText(b))
    ensures a == b
  {
    PercentTextRoundTrip(out, IntToText(a));
    PercentTextRoundTrip(out, IntToText(b));
    IntTextInjective(a, b);
  }
}

=== FILE: dom.dfy ===
/** The part of a page's document the extension touches: the style elements
    under the root element, in tree order. Each element node carries a unique
    identity (`uid`), which is what a script's reference to an element points
    at; `id` is the HTML id attribute, which `getElementById` searches. */
module Dom {
  import opened Wrappers

  datatype StyleElement = StyleElement(uid: nat, id: string, text: string)

  /** `nextUid` is the identity the next created element receives. */
  datatype Page = Page(styles: seq<StyleElement>, nextUid: nat)

  /** Identities are handed out in increasing order, so every element on the
      page has an identity below `nextUid`. */
  predicate WellFormed(p: Page) {
    forall e :: e in p.styles ==> e.uid < p.nextUid
  }

  function CountId(s: seq<StyleElement>, id: string): (n: nat)
    ensures n == 0 <==> forall e :: e in s ==> e.id != id
  {
    if s == [] then 0 else (if s[0].id == id then 1 else 0) + CountId(s[1..], id)
  }

  lemma {:induction false} CountIdAppend(s: seq<StyleElement>, t: seq<StyleElement>, id: string)
    ensures CountId(s + t, id) == CountId(s, id) + CountId(t, id)
  {
    if s != [] {
      assert (s + t)[1..] == s[1..] + t;
      CountIdAppend(s[1..], t, id);
    } else {
      assert s + t == t;
    }
  }

  /** `document.getElementById(id)`: the first element in tree order with
      that id. */
  function FirstWithId(s: seq<StyleElement>, id: string): (r: Option<StyleElement>)
    ensures r.Some? <==> CountId(s, id) > 0
    ensures r.Some? ==> r.value in s && r.value.id == id
  {
    if s == [] then None
    else if s[0].id == id then Some(s[0])
    else FirstWithId(s[1..], id)
  }

  /** The elements with an id other than `id`, in order. */
  function Others(s: seq<StyleElement>, id: string): (r: seq<StyleElement>)
    ensures CountId(r, id) == 0
  {
    if s == [] then []
    else if s[0].id == id then Others(s[1..], id)
    else [s[0]] + Others(s[1..], id)
  }

  lemma {:induction false} OthersAppend(s: seq<StyleElement>, t: seq<StyleElement>, id: string)
    ensures Others(s + t, id) == Others(s, id) + Others(t, id)
  {
    if s != [] {
      assert (s + t)[1..] == s[1..] + t;
      OthersAppend(s[1..], t, id);
    } else {
      assert s + t == t;
    }
  }

  /** `getElementById(id)?.remove()`: removes the first element with `id`. */
  function RemoveFirstWithId(s: seq<StyleElement>, id: string): (r: seq<StyleElement>)
    ensures CountId(r, id) == if CountId(s, id) > 0 then CountId(s, id) - 1 else 0
    ensures Others(r, id) == Others(s, id)
    ensures CountId(s, id) == 0 ==> r == s
    ensures forall e :: e in r ==> e in s
  {
    if s == [] then []
    else if s[0].id == id then s[1..]
    else
      var t := RemoveFirstWithId(s[1..], id);
      assert s == [s[0]] + s[1..];
      [s[0]] + t
  }

  /** `element.remove()` on the element with identity `uid`. */
  function RemoveUid(s: seq<StyleElement>, uid: nat): (r: seq<StyleElement>)
    ensures forall e :: e in r <==> e in s && e.uid != uid
  {
    if s == [] then []
    else if s[0].uid == uid then RemoveUid(s[1..], uid)
    else
      var t := RemoveUid(s[1..], uid);
      assert s == [s[0]] + s[1..];
      [s[0]] + t
  }

  /** `element.textContent = text` on the element with identity `uid`. */
  function SetText(s: seq<StyleElement>, uid: nat, text: string): (r: seq<StyleElement>)
    ensures |r| == |s|
    ensures forall i :: 0 <= i < |s| ==> r[i].uid == s[i].uid && r[i].id == s[i].id
    ensures forall i :: 0 <= i < |s| ==> r[i].text == if s[i].uid == uid then text else s[i].text
  {
    seq(|s|, i requires 0 <= i < |s| => if s[i].uid == uid then s[i].(text := text) else s[i])
  }

  /** `createElement` with an id and text, then `appendChild` to the root. */
  function AppendNew(p: Page, id: string, text: string): (r: Page)
    ensures WellFormed(p) ==> WellFormed(r)
    ensures r.styles == p.styles + [StyleElement(p.nextUid, id, text)]
  {
    Page(p.styles + [StyleElement(p.nextUid, id, text)], p.nextUid + 1)
  }

  lemma {:induction false} SetTextKeepsCount(s: seq<StyleElement>, uid: nat, text: string, id: string)
    ensures CountId(SetText(s, uid, text), id) == CountId(s, id)
  {
    if s != [] {
      var r := SetText(s, uid, text);
      assert r[1..] == SetText(s[1..], uid, text);
      SetTextKeepsCount(s[1..], uid, text, id);
    }
  }

  lemma {:induction false} FirstAfterNone(s: seq<StyleElement>, t: seq<StyleElement>, id: string)
    requires CountId(s, id) == 0
    ensures FirstWithId(s + t, id) == FirstWithId(t, id)
  {
    if s != [] {
      assert (s + t)[1..] == s[1..] + t;
      FirstAfterNone(s[1..], t, id);
    } else {
      assert s + t == t;
    }
  }

  /** Removes the element `getElementById(id)` finds, if any, then appends a
      fresh element with that id and the given text. */
  function ReplaceById(p: Page, id: string, text: string): (r: Page)
    ensures CountId(r.styles, id) == if CountId(p.styles, id) == 0 then 1 else CountId(p.styles, id)
    ensures Others(r.styles, id) == Others(p.styles, id)
    ensures WellFormed(p) ==> WellFormed(r)
    ensures CountId(p.styles, id) <= 1 ==> FirstWithId(r.styles, id) == Some(StyleElement(p.nextUid, id, text))
  {
    var kept := RemoveFirstWithId(p.styles, id);
    var e := StyleElement(p.nextUid, id, text);
    CountIdAppend(kept, [e], id);
    OthersAppend(kept, [e], id);
    assert Others([e], id) == [];
    assert CountId(p.styles, id) <= 1 ==> FirstWithId(kept + [e], id) == Some(e) by {
      if CountId(p.styles, id) <= 1 {
        FirstAfterNone(kept, [e], id);
      }
    }
    SubTreeWellFormed(p, kept);
    AppendNew(Page(kept, p.nextUid), id, text)
  }

  /** Removing elements from the tree keeps it well formed. */
  lemma SubTreeWellFormed(p: Page, s: seq<StyleElement>)
    requires forall e :: e in s ==> e in p.styles
    ensures WellFormed(p) ==> WellFormed(Page(s, p.nextUid))
  {
  }

  // ---------------------------------------------------------------------------
  // elements under one id are independent of elements under another

  /** Counting `id` ignores elements under any other id. */
  lemma {:induction false} CountIdOthers(s: seq<StyleElement>, other: string, id: string)
    requires id != other
    ensures CountId(Others(s, other), id) == CountId(s, id)
  {
    if s != [] {
      CountIdOthers(s[1..], other, id);
      if s[0].id != other {
        assert ([s[0]] + Others(s[1..], other))[1..] == Others(s[1..], other);
      }
    }
  }

  /** `getElementById(id)` ignores elements under any other id. */
  lemma {:induction false} FirstWithIdOthers(s: seq<StyleElement>, other: string, id: string)
    requires id != other
    ensures FirstWithId(Others(s, other), id) == FirstWithId(s, id)
  {
    if s != [] {
      FirstWithIdOthers(s[1..], other, id);
      if s[0].id != other {
        assert ([s[0]] + Others(s[1..], other))[1..] == Others(s[1..], other);
      }
    }
  }

  /** The elements kept are exactly those under another id. */
  lemma {:induction false} OthersMembers(s: seq<StyleElement>, id: string, e: StyleElement)
    ensures e in Others(s, id) <==> e in s && e.id != id
  {
    if s != [] {
      OthersMembers(s[1..], id, e);
      assert s == [s[0]] + s[1..];
    }
  }

  /** Setting the text of an element under `id` leaves the other elements
      as they were. */
  lemma {:induction false} SetTextKeepsOthers(s: seq<StyleElement>, uid: nat, text: string, id: string)
    requires forall i :: 0 <= i < |s| && s[i].uid == uid ==> s[i].id == id
    ensures Others(SetText(s, uid, text), id) == Others(s, id)
  {
    if s != [] {
      var r := SetText(s, uid, text);
      assert r[1..] == SetText(s[1..], uid, text);
      SetTextKeepsOthers(s[1..], uid, text, id);
    }
  }

  /** Removing an element under `id` leaves the other elements as they were. */
  lemma {:induction false} RemoveUidKeepsOthers(s: seq<StyleElement>, uid: nat, id: string)
    requires forall i :: 0 <= i < |s| && s[i].uid == uid ==> s[i].id == id
    ensures Others(RemoveUid(s, uid), id) == Others(s, id)
  {
    if s != [] {
      RemoveUidKeepsOthers(s[1..], uid, id);
      if s[0].uid != uid {
        assert ([s[0]] + RemoveUid(s[1..], uid))[1..] == RemoveUid(s[1..], uid);
      }
    }
  }
}

=== FILE: popup.dfy ===
/** The popup's editing of the site list: normalising and validating a typed
    domain, toggling, deleting, enabling or disabling everything at once, and
    the current tab's domain and toggle. Rendering, toasts and storage writes
    are left to the host; each edit returns the new site list. */
module Popup {
  import opened Wrappers
  import opened Strings
  import opened Sites

  // ---------------------------------------------------------------------------
  // normalising typed input

  const Https := "https://"
  const Http := "http://"

  /** The optional scheme group of `/^(https?:\/\/)?(www\.)?/`. */
  function StripScheme(s: string): string {
    if StartsWith(s, Https) then s[|Https|..]
    else if StartsWith(s, Http) then s[|Http|..]
    else s
  }

  predicate NoUpper(s: string) {
    forall i :: 0 <= i < |s| ==> !IsAsciiUpper(s[i])
  }

  /** `value.trim().toLowerCase()` */
  function TrimLower(input: string): string {
    ToLowerAscii(Trim(input))
  }

  /** `.replace(/^(https?:\/\/)?(www\.)?/, '')`: what is left is a suffix. */
  function StripSchemeAndWww(s: string): (r: string)
    ensures |r| <= |s| && r == s[|s| - |r|..]
  {
    var u := StripScheme(s);
    assert |u| <= |s| && u == s[|s| - |u|..];
    StripLeadingWww(u)
  }

  /** The whole normalisation: `value.trim().toLowerCase()`, then
      `.replace(/^(https?:\/\/)?(www\.)?/, '')`, then `.replace(/\/.*$/, '')`. */
  function Normalize(input: string): string {
    Before(StripSchemeAndWww(TrimLower(input)), '/')
  }

  lemma TrimLowerNoUpper(input: string)
    ensures NoUpper(TrimLower(input))
  {
    ToLowerAsciiProperties(Trim(input));
  }

  lemma StripKeepsNoUpper(t: string)
    requires NoUpper(t)
    ensures NoUpper(StripSchemeAndWww(t))
  {
    var u := StripSchemeAndWww(t);
    assert forall i :: 0 <= i < |u| ==> u[i] == t[|t| - |u| + i];
  }

  lemma CutKeepsNoUpper(u: string)
    requires NoUpper(u)
    ensures NoUpper(Before(u, '/'))
  {
    var d := Before(u, '/');
    assert forall i :: 0 <= i < |d| ==> d[i] == u[i];
  }

  /** A normalised domain holds no `/` and no upper-case letter. */
  lemma NormalizeShape(input: string)
    ensures Lacks(Normalize(input), '/')
    ensures NoUpper(Normalize(input))
  {
    TrimLowerNoUpper(input);
    StripKeepsNoUpper(TrimLower(input));
    CutKeepsNoUpper(StripSchemeAndWww(TrimLower(input)));
  }

  /** Normalisation ignores case: typing upper-case letters saves the same
      key as typing them in lower case. */
  lemma NormalizeIgnoresCase(s: string)
    ensures Normalize(ToLowerAscii(s)) == Normalize(s)
  {
    TrimLowerCommute(s);
    ToLowerAsciiProperties(Trim(s));
  }

  /** Without a `:`, neither scheme can be present. */
  lemma NoColonNoScheme(s: string)
    requires Lacks(s, ':')
    ensures !StartsWith(s, Https) && !StartsWith(s, Http)
  {
    if |s| >= 7 {
      assert s[4] != ':' && s[5] != ':';
    }
  }

  /** Normalising input that is already trimmed, lower case and without a
      scheme only strips `www.` and cuts at the first `/`. */
  lemma NormalizePlain(s: string)
    requires s == [] || (!IsJsWhiteSpace(s[0]) && !IsJsWhiteSpace(s[|s| - 1]))
    requires NoUpper(s)
    requires !StartsWith(s, Https) && !StartsWith(s, Http)
    ensures Normalize(s) == Before(StripLeadingWww(s), '/')
  {
    TrimFixpoint(s);
    ToLowerAsciiProperties(s);
  }

  /** The same for input with no `:` at all. */
  lemma NormalizeUnschemed(s: string)
    requires Lacks(s, ':') && NoUpper(s)
    requires s == [] || (!IsJsWhiteSpace(s[0]) && !IsJsWhiteSpace(s[|s| - 1]))
    ensures Normalize(s) == Before(StripLeadingWww(s), '/')
  {
    NoColonNoScheme(s);
    NormalizePlain(s);
  }

  // ---------------------------------------------------------------------------
  // the domain pattern /^[a-z0-9]+([\-\.]{1}[a-z0-9]+)*\.[a-z]{2,}$/i

  predicate IsAlnum(c: char) {
    'a' <= c <= 'z' || 'A' <= c <= 'Z' || '0' <= c <= '9'
  }

  predicate IsLetter(c: char) {
    'a' <= c <= 'z' || 'A' <= c <= 'Z'
  }

  predicate IsSep(c: char) {
    c == '-' || c == '.'
  }

  /** What may follow the first character of `[a-z0-9]+([\-\.][a-z0-9]+)*`:
      more alphanumerics, or a separator followed by an alphanumeric. */
  predicate LabelsTail(t: string)
    decreases |t|
  {
    || t == []
    || (IsAlnum(t[0]) && LabelsTail(t[1..]))
    || (|t| >= 2 && IsSep(t[0]) && IsAlnum(t[1]) && LabelsTail(t[2..]))
  }

  /** `[a-z0-9]+([\-\.][a-z0-9]+)*` */
  predicate Labels(s: string) {
    |s| > 0 && IsAlnum(s[0]) && LabelsTail(s[1..])
  }

  /** `[a-z]{2,}` */
  predicate TopLevel(t: string) {
    |t| >= 2 && forall i :: 0 <= i < |t| ==> IsLetter(t[i])
  }

  /** The whole pattern, with the regular expression's freedom to choose
      which `.` separates the labels from the top-level part. */
  predicate MatchesDomainPattern(s: string) {
    exists k :: 0 <= k < |s| && s[k] == '.' && Labels(s[..k]) && TopLevel(s[k + 1..])
  }

  /** The index of the last `.` in `s`. */
  function LastDot(s: string): (r: Option<nat>)
    ensures r.Some? ==> r.value < |s| && s[r.value] == '.'
    ensures r.Some? ==> forall i :: r.value < i < |s| ==> s[i] != '.'
    ensures r.None? ==> forall i :: 0 <= i < |s| ==> s[i] != '.'
  {
    if s == [] then None
    else if s[|s| - 1] == '.' then Some(|s| - 1)
    else LastDot(s[..|s| - 1])
  }

  /** The pattern test as a single choice: the top-level part contains no
      `.`, so the only candidate separator is the last `.`. */
  function ValidDomain(s: string): bool {
    match LastDot(s)
    case None => false
    case Some(k) => Labels(s[..k]) && TopLevel(s[k + 1..])
  }

  /** Splitting at the last `.` decides the pattern exactly. */
  lemma ValidDomainMatchesPattern(s: string)
    ensures ValidDomain(s) <==> MatchesDomainPattern(s)
  {
    if MatchesDomainPattern(s) {
      var k :| 0 <= k < |s| && s[k] == '.' && Labels(s[..k]) && TopLevel(s[k + 1..]);
      var last := LastDot(s);
      assert last.Some?;
      assert last.value == k;
    }
  }

  lemma {:induction false} LabelsTailChars(t: string)
    requires LabelsTail(t)
    ensures forall i :: 0 <= i < |t| ==> IsAlnum(t[i]) || IsSep(t[i])
    ensures t != [] ==> IsAlnum(t[|t| - 1])
    decreases |t|
  {
    if t != [] {
      if IsAlnum(t[0]) && LabelsTail(t[1..]) {
        LabelsTailChars(t[1..]);
        assert forall i :: 1 <= i < |t| ==> t[i] == t[1..][i - 1];
      } else {
        LabelsTailChars(t[2..]);
        assert forall i :: 2 <= i < |t| ==> t[i] == t[2..][i - 2];
      }
    }
  }

  /** A valid domain is made of letters, digits, `-` and `.` only, starts
      and ends with a letter or digit, and is at least four characters long. */
  lemma ValidDomainShape(s: string)
    requires ValidDomain(s)
    ensures HostText(s)
    ensures IsAlnum(s[|s| - 1])
    ensures |s| >= 4
  {
    var k := LastDot(s).value;
    var body := s[..k];
    LabelsTailChars(body[1..]);
    assert forall i :: 0 <= i < k ==> s[i] == body[i];
    assert forall i :: 1 <= i < k ==> body[i] == body[1..][i - 1];
    assert forall i :: k < i < |s| ==> s[i] == s[k + 1..][i - k - 1];
  }

  /** Letters, digits, `-` and `.`, starting with a letter or digit: the
      characters a valid domain is made of. */
  predicate HostText(d: string) {
    && |d| > 0 && IsAlnum(d[0])
    && forall i :: 0 <= i < |d| ==> IsAlnum(d[i]) || IsSep(d[i])
  }

  /** Letters, digits, `-` and `.` are neither white space, `:` nor `/`. */
  lemma HostCharPlain(c: char)
    requires IsAlnum(c) || IsSep(c)
    ensures !IsJsWhiteSpace(c) && c != ':' && c != '/'
  {
  }

  lemma HostTextPlain(d: string)
    requires HostText(d)
    ensures Lacks(d, ':') && Lacks(d, '/')
    ensures !IsJsWhiteSpace(d[0]) && !IsJsWhiteSpace(d[|d| - 1])
  {
    forall i | 0 <= i < |d|
      ensures d[i] != ':' && d[i] != '/'
    {
      HostCharPlain(d[i]);
    }
    HostCharPlain(d[0]);
    HostCharPlain(d[|d| - 1]);
  }

  /** Putting `www.` in front of host text gives host text. */
  lemma WwwHost(d: string)
    requires HostText(d) && NoUpper(d)
    ensures HostText(WwwPrefix + d) && NoUpper(WwwPrefix + d)
  {
    var t := WwwPrefix + d;
    forall i | 0 <= i < |t|
      ensures (IsAlnum(t[i]) || IsSep(t[i])) && !IsAsciiUpper(t[i])
    {
      if i >= 4 { assert t[i] == d[i - 4]; }
    }
  }

  lemma StripKeepsLacks(s: string, c: char)
    requires Lacks(s, c)
    ensures Lacks(StripLeadingWww(s), c)
  {
    var t := StripLeadingWww(s);
    assert forall i :: 0 <= i < |t| ==> t[i] == s[|s| - |t| + i];
  }

  // ---------------------------------------------------------------------------
  // normalising hosts

  /** Lower-case host text is only stripped of one leading `www.`. */
  lemma NormalizeHost(s: string)
    requires HostText(s) && NoUpper(s)
    ensures Normalize(s) == StripLeadingWww(s)
  {
    HostTextPlain(s);
    NormalizeUnschemed(s);
    StripKeepsLacks(s, '/');
    BeforeAbsent(StripLeadingWww(s), '/');
  }

  /** A saved domain that does not start with `www.` normalises to itself. */
  lemma NormalizeFixpoint(d: string)
    requires ValidDomain(d)
    requires NoUpper(d)
    requires !StartsWith(d, WwwPrefix)
    ensures Normalize(d) == d
  {
    ValidDomainShape(d);
    NormalizeHost(d);
  }

  /** Host text typed with `www.` in front is saved without it. */
  lemma NormalizeStripsOneWww(d: string)
    requires HostText(d) && NoUpper(d)
    ensures Normalize(WwwPrefix + d) == d
  {
    WwwHost(d);
    NormalizeHost(WwwPrefix + d);
    StripUndoesOnePrefix(d);
  }

  /** A scheme followed by host text, as the normalisation sees it: lower
      case, with nothing to trim. */
  lemma SchemedHostChars(scheme: string, d: string)
    requires scheme == Https || scheme == Http
    requires HostText(d) && NoUpper(d)
    ensures var s := scheme + d;
      && NoUpper(s) && !IsJsWhiteSpace(s[0]) && !IsJsWhiteSpace(s[|s| - 1])
  {
    var s := scheme + d;
    HostTextPlain(d);
    forall i | 0 <= i < |s|
      ensures !IsAsciiUpper(s[i])
    {
      if i >= |scheme| { assert s[i] == d[i - |scheme|]; }
    }
    assert s[|s| - 1] == d[|d| - 1];
  }

  /** `http://` and `https://` both leave exactly the host. */
  lemma StripSchemeOfHost(scheme: string, d: string)
    requires scheme == Https || scheme == Http
    ensures StripScheme(scheme + d) == d
  {
    var s := scheme + d;
    assert s[..|scheme|] == scheme;
    if scheme == Http {
      assert s[4] == ':';
    }
  }

  /** Host text typed after `http://` or `https://` normalises as if it had
      been typed without the scheme. */
  lemma NormalizeStripsScheme(scheme: string, d: string)
    requires scheme == Https || scheme == Http
    requires HostText(d) && NoUpper(d)
    ensures Normalize(scheme + d) == StripLeadingWww(d)
    ensures Normalize(scheme + d) == Normalize(d)
  {
    var s := scheme + d;
    SchemedHostChars(scheme, d);
    TrimFixpoint(s);
    ToLowerAsciiProperties(s);
    StripSchemeOfHost(scheme, d);
    HostTextPlain(d);
    StripKeepsLacks(d, '/');
    BeforeAbsent(StripLeadingWww(d), '/');
    NormalizeHost(d);
  }

  /** `example.com` is lower-case host text without a leading `www.`. */
  lemma ExampleHost()
    ensures HostText("example.com") && NoUpper("example.com")
    ensures !StartsWith("example.com", WwwPrefix)
  {
    assert "example.com"[0] == 'e';
  }

  /** `path` is lower case, holds no `:` and ends in a letter. */
  lemma ExamplePath()
    ensures NoUpper("path") && Lacks("path", ':') && !IsJsWhiteSpace("path"[3])
  {
  }

  /** `Example.COM/path` lower-cased is `example.com`, `/`, `path`. */
  lemma LowerExamplePath()
    ensures ToLowerAscii("Example.COM/path") == "example.com" + ['/'] + "path"
  {
  }

  /** Upper case and a path disappear: `Example.COM/path` is saved as
      `example.com`. */
  lemma NormalizeCaseAndPathExample()
    ensures Normalize("Example.COM/path") == "example.com"
  {
    var s := "Example.COM/path";
    LowerExamplePath();
    NormalizeIgnoresCase(s);
    ExampleHost();
    ExamplePath();
    NormalizeCutsPath("example.com", "path");
  }

  /** A scheme and `www.` disappear: `https://www.example.com` is saved as
      `example.com`. */
  lemma NormalizeSchemeExample()
    ensures Normalize("https://www.example.com") == "example.com"
  {
    var d := "example.com";
    ExampleHost();
    WwwHost(d);
    assert Https + (WwwPrefix + d) == "https://www.example.com";
    NormalizeStripsScheme(Https, WwwPrefix + d);
    StripUndoesOnePrefix(d);
  }

  /** The list does not keep keys free of `www.`: typing `www.www.` before a
      domain saves the domain with one `www.` left on it, and normalising
      that key again gives the bare domain, a different key. */
  lemma DoubleWwwKeepsOne(d: string)
    requires ValidDomain(d) && NoUpper(d) && !StartsWith(d, WwwPrefix)
    ensures Normalize(WwwPrefix + (WwwPrefix + d)) == WwwPrefix + d
    ensures Normalize(WwwPrefix + d) == d
  {
    ValidDomainShape(d);
    WwwHost(d);
    NormalizeStripsOneWww(d);
    NormalizeStripsOneWww(WwwPrefix + d);
  }

  /** The characters of a host followed by a path, as the normalisation
      sees them. */
  lemma HostPathChars(d: string, path: string)
    requires HostText(d) && NoUpper(d)
    requires NoUpper(path) && Lacks(path, ':')
    requires path == [] || !IsJsWhiteSpace(path[|path| - 1])
    ensures var s := d + ['/'] + path;
      && Lacks(s, ':') && NoUpper(s)
      && !IsJsWhiteSpace(s[0]) && !IsJsWhiteSpace(s[|s| - 1])
  {
    var s := d + ['/'] + path;
    HostTextPlain(d);
    forall i | 0 <= i < |s|
      ensures s[i] != ':' && !IsAsciiUpper(s[i])
    {
      if i < |d| {
        assert s[i] == d[i];
      } else if i > |d| {
        assert s[i] == path[i - |d| - 1];
      }
    }
    assert s[0] == d[0];
    if path == [] {
      assert s[|s| - 1] == '/';
    } else {
      assert s[|s| - 1] == path[|path| - 1];
    }
  }

  lemma WwwLacksSlash()
    ensures Lacks(WwwPrefix, '/')
  {
    assert WwwPrefix == ['w', 'w', 'w', '.'];
  }

  /** Everything from the first `/` on is dropped: a host followed by a path
      normalises to the host. */
  lemma NormalizeCutsPath(d: string, path: string)
    requires HostText(d) && NoUpper(d) && !StartsWith(d, WwwPrefix)
    requires NoUpper(path) && Lacks(path, ':')
    requires path == [] || !IsJsWhiteSpace(path[|path| - 1])
    ensures Normalize(d + ['/'] + path) == d
  {
    HostPathChars(d, path);
    NormalizeUnschemed(d + ['/'] + path);
    WwwLacksSlash();
    NotStartsWithExtended(d, '/', path, WwwPrefix);
    HostTextPlain(d);
    BeforeAppend(d, '/', path);
  }

  /** A leading `www.` on host text is still the leading `www.` once a path
      follows the host. */
  lemma StripWwwBeforeSlash(d: string, path: string)
    requires HostText(d)
    ensures StripLeadingWww(d + ['/'] + path) == StripLeadingWww(d) + ['/'] + path
  {
    var s := d + ['/'] + path;
    if StartsWith(d, WwwPrefix) {
      assert s[..|WwwPrefix|] == d[..|WwwPrefix|];
      assert s[|WwwPrefix|..] == d[|WwwPrefix|..] + ['/'] + path;
    } else {
      WwwLacksSlash();
      NotStartsWithExtended(d, '/', path, WwwPrefix);
    }
  }

  /** A pasted address, as the normalisation sees it: lower case, with
      nothing to trim. */
  lemma SchemedUrlChars(scheme: string, d: string, path: string)
    requires scheme == Https || scheme == Http
    requires HostText(d) && NoUpper(d)
    requires NoUpper(path) && (path == [] || !IsJsWhiteSpace(path[|path| - 1]))
    ensures var s := scheme + (d + ['/'] + path);
      && NoUpper(s) && !IsJsWhiteSpace(s[0]) && !IsJsWhiteSpace(s[|s| - 1])
  {
    var t := d + ['/'] + path;
    var s := scheme + t;
    forall i | 0 <= i < |s|
      ensures !IsAsciiUpper(s[i])
    {
      if i < |scheme| {
        assert s[i] == scheme[i];
      } else if i < |scheme| + |d| {
        assert s[i] == d[i - |scheme|];
      } else if i > |scheme| + |d| {
        assert s[i] == path[i - |scheme| - |d| - 1];
      }
    }
    assert s[0] == 'h';
    if path == [] {
      assert s[|s| - 1] == '/';
    } else {
      assert s[|s| - 1] == path[|path| - 1];
    }
  }

  /** The case the normalisation is for: an address pasted from the
      address bar, with a scheme, perhaps `www.`, a host and a path, is
      saved as the host less one leading `www.`. The path may hold
      anything, `:` included, as long as it does not end in white space. */
  lemma NormalizeUrl(scheme: string, d: string, path: string)
    requires scheme == Https || scheme == Http
    requires HostText(d) && NoUpper(d)
    requires NoUpper(path) && (path == [] || !IsJsWhiteSpace(path[|path| - 1]))
    ensures Normalize(scheme + d + ['/'] + path) == StripLeadingWww(d)
  {
    var s := scheme + (d + ['/'] + path);
    assert scheme + d + ['/'] + path == s;
    SchemedUrlChars(scheme, d, path);
    TrimFixpoint(s);
    ToLowerAsciiProperties(s);
    StripUrl(scheme, d, path);
    HostTextPlain(d);
    StripKeepsLacks(d, '/');
    BeforeAppend(StripLeadingWww(d), '/', path);
  }

  /** The anchored replacement removes the scheme and one leading `www.`
      and keeps the path. */
  lemma StripUrl(scheme: string, d: string, path: string)
    requires scheme == Https || scheme == Http
    requires HostText(d)
    ensures StripSchemeAndWww(scheme + (d + ['/'] + path)) == StripLeadingWww(d) + ['/'] + path
  {
    StripSchemeOfHost(scheme, d + ['/'] + path);
    StripWwwBeforeSlash(d, path);
  }

  /** `https://www.example.com/path` spelled out as its parts. */
  lemma ExampleUrlParts()
    ensures Https + (WwwPrefix + "example.com") + ['/'] + "path" == "https://www.example.com/path"
  {
  }

  /** A pasted address: `https://www.example.com/path` is saved as
      `example.com`. */
  lemma NormalizeUrlExample()
    ensures Normalize("https://www.example.com/path") == "example.com"
  {
    var d := "example.com";
    ExampleHost();
    ExamplePath();
    WwwHost(d);
    ExampleUrlParts();
    NormalizeUrl(Https, WwwPrefix + d, "path");
    StripUndoesOnePrefix(d);
  }

  // ---------------------------------------------------------------------------
  // adding a site

  datatype AddError = EmptyInput | InvalidFormat | AlreadyExists

  /** Either the normalised domain and the new site list, or the reason the
      input was refused (the site list is then left as it was). */
  datatype AddResult = Added(domain: string, sites: SiteConfig) | Rejected(error: AddError)

  /** `addNewSite`: normalise, refuse empty input, refuse input that fails the
      pattern, refuse a domain already saved, and only then save the domain
      as enabled. */
  function AddNewSite(input: string, sites: SiteConfig): (r: AddResult)
    ensures r == Rejected(EmptyInput) <==> Normalize(input) == ""
    ensures r == Rejected(InvalidFormat) <==> Normalize(input) != "" && !ValidDomain(Normalize(input))
    ensures r == Rejected(AlreadyExists) <==> ValidDomain(Normalize(input)) && Normalize(input) in sites
    ensures r.Added? ==> r.domain == Normalize(input) && ValidDomain(r.domain) && r.domain !in sites
    ensures r.Added? ==> r.domain in r.sites && r.sites[r.domain] == SiteEntry(true)
    ensures r.Added? ==> r.sites - {r.domain} == sites
  {
    var domain := Normalize(input);
    if domain == "" then Rejected(EmptyInput)
    else if !ValidDomain(domain) then Rejected(InvalidFormat)
    else if domain in sites then Rejected(AlreadyExists)
    else Added(domain, SaveNew(sites, domain))
  }

  /** `sites[domain] = { enabled: true }` for a domain not yet saved. */
  function SaveNew(sites: SiteConfig, domain: string): (r: SiteConfig)
    requires domain !in sites
    ensures domain in r && r[domain] == SiteEntry(true)
    ensures r - {domain} == sites
  {
    sites[domain := SiteEntry(true)]
  }

  /** Typing a saved domain again (one without a leading `www.`) is refused
      as a duplicate. */
  lemma ReAddRejected(input: string, sites: SiteConfig)
    requires AddNewSite(input, sites).Added?
    requires !StartsWith(AddNewSite(input, sites).domain, WwwPrefix)
    ensures var r := AddNewSite(input, sites);
      AddNewSite(r.domain, r.sites) == Rejected(AlreadyExists)
  {
    var r := AddNewSite(input, sites);
    NormalizeShape(input);
    NormalizeFixpoint(r.domain);
  }

  /** A saved key `www.` + d typed again is not refused: it normalises to
      `d`, which is refused only when `d` itself is saved and is otherwise
      added beside the `www.` key. */
  lemma WwwKeyRetyped(d: string, sites: SiteConfig)
    requires ValidDomain(d) && NoUpper(d) && !StartsWith(d, WwwPrefix)
    requires WwwPrefix + d in sites
    ensures d in sites ==> AddNewSite(WwwPrefix + d, sites) == Rejected(AlreadyExists)
    ensures d !in sites ==> AddNewSite(WwwPrefix + d, sites) == Added(d, sites[d := SiteEntry(true)])
  {
    DoubleWwwKeepsOne(d);
  }

  /** Adding a site and deleting it again gives back the original list. */
  lemma AddThenDelete(input: string, sites: SiteConfig)
    requires AddNewSite(input, sites).Added?
    ensures var r := AddNewSite(input, sites);
      DeleteSite(r.sites, r.domain) == sites
  {
  }

  /** An added domain without a leading `www.` greyscales the domain itself,
      its `www.` form and every subdomain. */
  lemma AddedSiteGreyscales(input: string, sites: SiteConfig, prefix: string)
    requires AddNewSite(input, sites).Added?
    requires !StartsWith(AddNewSite(input, sites).domain, WwwPrefix)
    ensures var r := AddNewSite(input, sites);
      && HostEnabled(r.domain, r.sites)
      && HostEnabled(WwwPrefix + r.domain, r.sites)
      && HostEnabled(prefix + "." + r.domain, r.sites)
  {
    var r := AddNewSite(input, sites);
    assert Matches(StripLeadingWww(r.domain), r.domain);
    StripUndoesOnePrefix(r.domain);
    assert Matches(StripLeadingWww(WwwPrefix + r.domain), r.domain);
    SubdomainInherits(prefix, r.domain, r.sites);
  }

  /** Any character outside letters, digits, `-` and `.` left after
      normalising makes the input invalid. */
  lemma ForeignCharRejected(input: string, sites: SiteConfig, i: nat)
    requires i < |Normalize(input)|
    requires !IsAlnum(Normalize(input)[i]) && !IsSep(Normalize(input)[i])
    ensures AddNewSite(input, sites) == Rejected(InvalidFormat)
  {
    if ValidDomain(Normalize(input)) {
      ValidDomainShape(Normalize(input));
    }
  }

  /** Blank input is refused as empty. */
  lemma BlankRejected(input: string, sites: SiteConfig)
    requires forall i :: 0 <= i < |input| ==> IsJsWhiteSpace(input[i])
    ensures AddNewSite(input, sites) == Rejected(EmptyInput)
  {
  }

  // ---------------------------------------------------------------------------
  // toggling, deleting, bulk changes

  /** `toggleSite(domain, enabled)`: creates the entry when missing, otherwise
      sets its flag. No validation: any key can be created this way. */
  function ToggleSite(sites: SiteConfig, domain: string, enabled: bool): (r: SiteConfig)
    ensures r.Keys == sites.Keys + {domain}
    ensures r[domain] == SiteEntry(enabled)
    ensures forall k :: k in sites && k != domain ==> k in r && r[k] == sites[k]
  {
    if domain !in sites then sites[domain := SiteEntry(enabled)]
    else sites[domain := sites[domain].(enabled := enabled)]
  }

  /** `deleteSite(domain)`: `delete sites[domain]`. */
  function DeleteSite(sites: SiteConfig, domain: string): (r: SiteConfig)
    ensures r.Keys == sites.Keys - {domain}
    ensures forall k :: k in r ==> k in sites && r[k] == sites[k]
    ensures domain !in sites ==> r == sites
  {
    sites - {domain}
  }

  /** Deleting undoes toggling on a domain that was not saved. */
  lemma ToggleThenDelete(sites: SiteConfig, domain: string, enabled: bool)
    ensures DeleteSite(ToggleSite(sites, domain, enabled), domain) == DeleteSite(sites, domain)
    ensures domain !in sites ==> DeleteSite(ToggleSite(sites, domain, enabled), domain) == sites
  {
  }

  /** `bulkToggle(enabled)`: with no saved sites nothing happens (and nothing
      is saved); otherwise every flag is set. The second component says
      whether the list was written back. */
  function BulkToggle(sites: SiteConfig, enabled: bool): (r: (SiteConfig, bool))
    ensures r.1 <==> |sites| > 0
    ensures r.0.Keys == sites.Keys
    ensures forall k :: k in sites ==> k in r.0 && r.0[k] == SiteEntry(enabled)
    ensures |sites| == 0 ==> r.0 == sites
  {
    if |sites| == 0 then (sites, false)
    else (map k | k in sites :: sites[k].(enabled := enabled), true)
  }

  /** After enabling everything, a host is greyscaled exactly when some saved
      key matches it, whatever the flags were before. */
  lemma BulkEnableMatchesAllKeys(hostname: string, sites: SiteConfig)
    ensures HostEnabled(hostname, BulkToggle(sites, true).0)
      <==> exists k :: k in sites && Matches(StripLeadingWww(hostname), k)
  {
    var r := BulkToggle(sites, true).0;
    var d := StripLeadingWww(hostname);
    if exists k :: k in sites && Matches(d, k) {
      var k :| k in sites && Matches(d, k);
      assert k in r && r[k].enabled;
    }
  }

  /** After disabling everything, no host is greyscaled. */
  lemma BulkDisableMatchesNothing(hostname: string, sites: SiteConfig)
    ensures !HostEnabled(hostname, BulkToggle(sites, false).0)
  {
  }

  // ---------------------------------------------------------------------------
  // the current tab

  datatype CurrentSite = Unavailable | Current(domain: string, checked: bool)

  /** `getCurrentTab`: for an http(s) tab whose URL parses, the hostname
      without one leading `www.`, and the toggle checked when exactly that key
      is saved and enabled. `url` is None when there is no active tab or it
      has no URL; `host` is None when the URL parser throws. */
  function GetCurrentTab(url: Option<string>, host: Option<string>, sites: SiteConfig): (c: CurrentSite)
    ensures c.Current? <==> url.Some? && StartsWith(url.value, "http") && host.Some?
    ensures c.Current? ==> c.domain == StripLeadingWww(host.value)
    ensures c.Current? ==> (c.checked <==> EnabledKey(sites, c.domain))
    ensures c.Current? && c.checked ==> HostEnabled(host.value, sites)
  {
    if url.Some? && StartsWith(url.value, "http") then
      match host
      case None => Unavailable
      case Some(h) =>
        var d := StripLeadingWww(h);
        Current(d, d in sites && sites[d].enabled)
    else Unavailable
  }

  /** The toggle shows only exact keys: on a subdomain of a saved site the
      page is greyscaled while the toggle is unchecked. */
  lemma ToggleMissesSubdomains()
    ensures var sites := map["a.com" := SiteEntry(true)];
      var c := GetCurrentTab(Some("https://sub.a.com/"), Some("sub.a.com"), sites);
      c == Current("sub.a.com", false) && HostEnabled("sub.a.com", sites)
  {
    var sites := map["a.com" := SiteEntry(true)];
    assert StartsWith("https://sub.a.com/", "http");
    assert !StartsWith("sub.a.com", WwwPrefix) by { assert "sub.a.com"[0] == 's'; }
    assert EndsWith("sub.a.com", ".a.com");
    assert Matches(StripLeadingWww("sub.a.com"), "a.com");
  }

  /** Whether the current-site toggle's change handler acts: only when a
      current domain was found. */
  predicate ToggleActs(currentDomain: string) {
    currentDomain != "" && currentDomain != "Not available"
  }

  /** The current-site toggle's change handler: when a current domain was
      found, that domain is saved with the toggle's state; otherwise the list
      is left as it was. */
  function OnCurrentSiteToggle(currentDomain: string, checked: bool, sites: SiteConfig): (r: SiteConfig)
    ensures !ToggleActs(currentDomain) ==> r == sites
    ensures ToggleActs(currentDomain) ==> r.Keys == sites.Keys + {currentDomain}
    ensures ToggleActs(currentDomain) ==> r[currentDomain] == SiteEntry(checked)
    ensures forall k :: k in sites && k != currentDomain ==> k in r && r[k] == sites[k]
  {
    if ToggleActs(currentDomain) then ToggleSite(sites, currentDomain, checked)
    else sites
  }

  /** Switching the toggle on greyscales the current tab, unless the tab's
      domain is empty (the host `www.`), when nothing is saved and nothing
      changes. */
  lemma ToggleOnGreyscalesCurrent(url: Option<string>, host: Option<string>, sites: SiteConfig)
    requires GetCurrentTab(url, host, sites).Current?
    ensures var d := GetCurrentTab(url, host, sites).domain;
      ToggleActs(d) ==> HostEnabled(host.value, OnCurrentSiteToggle(d, true, sites))
    ensures var d := GetCurrentTab(url, host, sites).domain;
      !ToggleActs(d) ==> OnCurrentSiteToggle(d, true, sites) == sites
  {
    var d := GetCurrentTab(url, host, sites).domain;
    if ToggleActs(d) {
      var r := OnCurrentSiteToggle(d, true, sites);
      assert Matches(StripLeadingWww(host.value), d);
      assert EnabledKey(r, d);
    }
  }

  /** On the host `www.` the current domain is empty and the toggle saves
      nothing, so the tab is not greyscaled. */
  lemma ToggleOnBareWwwDoesNothing()
    ensures GetCurrentTab(Some("http://www./"), Some("www."), map[]) == Current("", false)
    ensures OnCurrentSiteToggle("", true, map[]) == map[]
    ensures !HostEnabled("www.", OnCurrentSiteToggle("", true, map[]))
  {
    assert StartsWith("http://www./", "http");
    assert StartsWith("www.", WwwPrefix);
  }

  /** Switching it off does not always stop greyscale: a saved parent domain
      still matches. */
  lemma ToggleOffMayNotClear()
    ensures var sites := map["a.com" := SiteEntry(true)];
      HostEnabled("sub.a.com", OnCurrentSiteToggle("sub.a.com", false, sites))
  {
    var sites := OnCurrentSiteToggle("sub.a.com", false, map["a.com" := SiteEntry(true)]);
    assert !StartsWith("sub.a.com", WwwPrefix) by { assert "sub.a.com"[0] == 's'; }
    assert EndsWith("sub.a.com", ".a.com");
    assert "a.com" in sites && sites["a.com"].enabled;
  }
}

=== FILE: settings.dfy ===
/** The persisted settings record and the way each part of the extension
    reads it back with defaults. Storage itself is host I/O: it appears here
    only as the record that a read returns and a write produces. */
module Settings {
  import opened Sites

  /** A value read from storage: never written, explicitly null, or present. */
  datatype Stored<+T> = Missing | Null | Present(value: T)

  /** The two keys the extension keeps in synced storage. */
  datatype StoredSettings = StoredSettings(greyscaleSites: Stored<SiteConfig>, intensity: Stored<int>)

  /** Settings after defaulting, as the background worker and the popup use
      them. The intensity is not clamped: whatever was stored passes through. */
  datatype Settings = Settings(sites: SiteConfig, intensity: int)

  const DefaultIntensity: int := 100

  /** `data.greyscaleSites || {}`: a stored object is always truthy, so only
      an absent or null value falls back to the empty site list. */
  function SitesOrEmpty(raw: Stored<SiteConfig>): (r: SiteConfig)
    ensures raw.Present? ==> r == raw.value
    ensures !raw.Present? ==> r == map[]
  {
    match raw
    case Present(m) => m
    case _ => map[]
  }

  /** `getSettings` in the background worker and `loadState` in the popup:
      `greyscaleSites || {}` and `intensity ?? 100`. */
  function Load(st: StoredSettings): (s: Settings)
    ensures st.greyscaleSites.Present? ==> s.sites == st.greyscaleSites.value
    ensures !st.greyscaleSites.Present? ==> s.sites == map[]
    ensures st.intensity.Present? ==> s.intensity == st.intensity.value
    ensures !st.intensity.Present? ==> s.intensity == DefaultIntensity
  {
    Settings(
      SitesOrEmpty(st.greyscaleSites),
      match st.intensity
      case Present(i) => i
      case _ => DefaultIntensity)
  }

  /** Writing both keys. */
  function Save(s: Settings): StoredSettings {
    StoredSettings(Present(s.sites), Present(s.intensity))
  }

  /** `saveState` in the popup writes only `greyscaleSites`. */
  function SaveSites(st: StoredSettings, sites: SiteConfig): StoredSettings {
    st.(greyscaleSites := Present(sites))
  }

  /** Reading back what was written gives the same settings. */
  lemma SaveLoadRoundTrip(s: Settings)
    ensures Load(Save(s)) == s
  {
  }

  /** Saving the site list changes what is read back for the site list only. */
  lemma SaveSitesKeepsIntensity(st: StoredSettings, sites: SiteConfig)
    ensures Load(SaveSites(st, sites)).sites == sites
    ensures Load(SaveSites(st, sites)).intensity == Load(st).intensity
  {
  }

  /** `onInstalled`: on a fresh install both keys are written with their
      defaults; on an update or browser update nothing is written. */
  function OnInstalled(reason: string, st: StoredSettings): (r: StoredSettings)
    ensures reason == "install" ==> Load(r) == Settings(map[], DefaultIntensity)
    ensures reason == "install" ==> ContentLoad(r) == ContentSettings(map[], Present(DefaultIntensity))
    ensures reason == "install" ==> r.greyscaleSites == Present(map[]) && r.intensity == Present(DefaultIntensity)
    ensures reason != "install" ==> r == st
  {
    if reason == "install" then Save(Settings(map[], DefaultIntensity)) else st
  }

  /** The content script's reading: `greyscaleSites || {}` for the sites, but
      `intensity !== undefined ? intensity : 100`, so a stored null stays
      null. */
  datatype ContentSettings = ContentSettings(sites: SiteConfig, intensity: Stored<int>)

  function ContentLoad(st: StoredSettings): (c: ContentSettings)
    ensures c.sites == Load(st).sites
    ensures st.intensity.Missing? ==> c.intensity == Present(DefaultIntensity)
    ensures !st.intensity.Missing? ==> c.intensity == st.intensity
    ensures !c.intensity.Missing?
  {
    ContentSettings(
      SitesOrEmpty(st.greyscaleSites),
      if st.intensity.Missing? then Present(DefaultIntensity) else st.intensity)
  }

  /** The two readings of the intensity agree exactly when the stored value
      is not null: a stored null reads as 100 in the background worker and
      as null in the content script. */
  lemma IntensityReadingsAgree(st: StoredSettings)
    ensures ContentLoad(st).intensity == Present(Load(st).intensity) <==> !st.intensity.Null?
  {
  }
}

=== FILE: sites.dfy ===
/** The saved site list and the domain matcher the background worker uses to
    decide whether a page falls under a saved site. */
module Sites {
  import opened Strings

  /** The value stored for a domain: `{ enabled }`. */
  datatype SiteEntry = SiteEntry(enabled: bool)

  /** The `greyscaleSites` object: domain -> entry. Key order plays no part. */
  type SiteConfig = map<string, SiteEntry>

  const WwwPrefix := "www."

  /** `hostname.replace(/^www\./, '')`: one leading `www.` is removed. */
  function StripLeadingWww(hostname: string): string {
    if StartsWith(hostname, WwwPrefix) then hostname[|WwwPrefix|..] else hostname
  }

  /** A (stripped) domain falls under a saved key when it is the key itself or
      a subdomain of it. */
  predicate Matches(domain: string, key: string) {
    domain == key || EndsWith(domain, "." + key)
  }

  predicate EnabledKey(sites: SiteConfig, key: string) {
    key in sites && sites[key].enabled
  }

  /** Some enabled saved key matches `domain`. */
  predicate AnyEnabledMatch(domain: string, sites: SiteConfig) {
    exists key :: key in sites && sites[key].enabled && Matches(domain, key)
  }

  /** Reference meaning of the background matcher: the hostname, with one
      leading `www.` removed, falls under some enabled saved key. */
  predicate HostEnabled(hostname: string, sites: SiteConfig) {
    AnyEnabledMatch(StripLeadingWww(hostname), sites)
  }

  // ---------------------------------------------------------------------------
  // the www. prefix

  /** Stripping undoes exactly one prepended `www.`. */
  lemma StripUndoesOnePrefix(d: string)
    ensures StripLeadingWww(WwwPrefix + d) == d
  {
    assert (WwwPrefix + d)[..4] == WwwPrefix;
  }

  /** Only a leading `www.` is removed: a hostname that does not start with
      it is left as it is, wherever else `www.` may occur. */
  lemma StripOnlyLeading(hostname: string)
    requires !StartsWith(hostname, WwwPrefix)
    ensures StripLeadingWww(hostname) == hostname
  {
  }

  lemma StripExamples()
    ensures StripLeadingWww("www.www.a.com") == "www.a.com"
    ensures StripLeadingWww("a.www.b.com") == "a.www.b.com"
    ensures StripLeadingWww("www.example.com") == "example.com"
  {
    StripUndoesOnePrefix("www.a.com");
    StripUndoesOnePrefix("example.com");
    assert "a.www.b.com"[..4] != WwwPrefix by { assert "a.www.b.com"[0] == 'a'; }
  }

  // ---------------------------------------------------------------------------
  // the matcher

  /** A hostname that ends with `.key` is matched by `key`, even after the
      leading `www.` is stripped. */
  lemma {:induction false} DotSuffixMatches(hostname: string, key: string)
    requires EndsWith(hostname, "." + key)
    ensures Matches(StripLeadingWww(hostname), key)
  {
    if StartsWith(hostname, WwwPrefix) {
      var d := hostname[4..];
      var n := |hostname|;
      var m := |key| + 1;
      var dk := "." + key;
      assert hostname[n - m..] == dk;
      assert hostname[n - m] == dk[0] == '.';
      assert forall i :: 0 <= i < 3 ==> hostname[i] == WwwPrefix[i] == 'w';
      if n - m >= 4 {
        assert d[|d| - m..] == hostname[n - m..];
      } else {
        assert hostname[3..] == dk;
        assert d == dk[1..] == key;
      }
    }
  }

  /** A match after stripping means the hostname is the key or ends with
      `.key`. */
  lemma {:induction false} MatchesUnstripped(hostname: string, key: string)
    requires Matches(StripLeadingWww(hostname), key)
    ensures hostname == key || EndsWith(hostname, "." + key)
  {
    if StartsWith(hostname, WwwPrefix) {
      var d := hostname[4..];
      assert hostname == WwwPrefix + d;
      var dk := "." + key;
      if d == key {
        assert hostname[|hostname| - |dk|..] == dk;
      } else {
        assert hostname[|hostname| - |dk|..] == d[|d| - |dk|..];
      }
    }
  }

  /** For a key that does not itself start with `www.`, stripping makes no
      difference: the key matches exactly the hostnames equal to it or ending
      with `.key`. */
  lemma MatchIgnoresWww(hostname: string, key: string)
    requires !StartsWith(key, WwwPrefix)
    ensures Matches(StripLeadingWww(hostname), key) <==> hostname == key || EndsWith(hostname, "." + key)
  {
    if Matches(StripLeadingWww(hostname), key) {
      MatchesUnstripped(hostname, key);
    }
    if EndsWith(hostname, "." + key) {
      DotSuffixMatches(hostname, key);
    }
  }

  /** A key that starts with `www.` never matches the hostname equal to it:
      the hostname loses its `www.` before the comparison. */
  lemma WwwKeyMissesItself()
    ensures !HostEnabled("www.a.com", map["www.a.com" := SiteEntry(true)])
  {
    var sites := map["www.a.com" := SiteEntry(true)];
    StripUndoesOnePrefix("a.com");
    var d := StripLeadingWww("www.a.com");
    assert d == "a.com";
    assert !Matches(d, "www.a.com");
    assert forall k :: EnabledKey(sites, k) ==> k == "www.a.com";
  }

  /** Subdomains of a greyscaled host are greyscaled too. */
  lemma SubdomainInherits(prefix: string, hostname: string, sites: SiteConfig)
    requires HostEnabled(hostname, sites)
    ensures HostEnabled(prefix + "." + hostname, sites)
  {
    var key :| key in sites && sites[key].enabled && Matches(StripLeadingWww(hostname), key);
    MatchesUnstripped(hostname, key);
    var h2 := prefix + "." + hostname;
    var dk := "." + key;
    if hostname == key {
      assert h2[|h2| - |dk|..] == dk;
    } else {
      assert h2[|h2| - |dk|..] == hostname[|hostname| - |dk|..];
    }
    DotSuffixMatches(h2, key);
    assert key in sites && sites[key].enabled && Matches(StripLeadingWww(h2), key);
  }

  /** No hostname is greyscaled with an empty site list. */
  lemma EmptyNeverEnabled(hostname: string)
    ensures !HostEnabled(hostname, map[])
  {
  }

  /** A disabled entry never contributes: turning one entry off can only turn
      the verdict from true to false. */
  lemma DisablingIsMonotone(hostname: string, sites: SiteConfig, key: string)
    ensures HostEnabled(hostname, sites[key := SiteEntry(false)]) ==> HostEnabled(hostname, sites)
  {
    var s2 := sites[key := SiteEntry(false)];
    if HostEnabled(hostname, s2) {
      var k :| k in s2 && s2[k].enabled && Matches(StripLeadingWww(hostname), k);
      assert k != key && k in sites && sites[k] == s2[k];
    }
  }

  /** Turning one entry on can only turn the verdict from false to true. */
  lemma EnablingIsMonotone(hostname: string, sites: SiteConfig, key: string)
    ensures HostEnabled(hostname, sites) ==> HostEnabled(hostname, sites[key := SiteEntry(true)])
  {
    var s2 := sites[key := SiteEntry(true)];
    if HostEnabled(hostname, sites) {
      var k :| k in sites && sites[k].enabled && Matches(StripLeadingWww(hostname), k);
      assert k in s2 && s2[k].enabled;
    }
  }

  /** Only the enabled entries matter: two site lists with the same enabled
      keys give the same verdict for every hostname. */
  lemma OnlyEnabledKeysMatter(hostname: string, s1: SiteConfig, s2: SiteConfig)
    requires forall k :: EnabledKey(s1, k) <==> EnabledKey(s2, k)
    ensures HostEnabled(hostname, s1) <==> HostEnabled(hostname, s2)
  {
    var d := StripLeadingWww(hostname);
    if HostEnabled(hostname, s1) {
      var k :| k in s1 && s1[k].enabled && Matches(d, k);
      assert EnabledKey(s1, k);
      assert k in s2 && s2[k].enabled;
    }
    if HostEnabled(hostname, s2) {
      var k :| k in s2 && s2[k].enabled && Matches(d, k);
      assert EnabledKey(s2, k);
      assert k in s1 && s1[k].enabled;
    }
  }

  /** `www.example.com` is greyscaled by the key `example.com`. */
  lemma WwwHostMatchesBareKey()
    ensures HostEnabled("www.example.com", map["example.com" := SiteEntry(true)])
  {
    var ex := "example.com";
    StripUndoesOnePrefix(ex);
    assert EnabledKey(map[ex := SiteEntry(true)], ex);
    assert Matches(StripLeadingWww("www.example.com"), ex);
  }

  /** `sub.example.com` is greyscaled by the key `example.com`. */
  lemma SubdomainMatchesKey()
    ensures HostEnabled("sub.example.com", map["example.com" := SiteEntry(true)])
  {
    var ex := "example.com";
    var h := "sub.example.com";
    assert !StartsWith(h, WwwPrefix) by { assert h[0] == 's'; }
    assert h[|h| - |"." + ex|..] == "." + ex;
    assert Matches(StripLeadingWww(h), ex);
    assert EnabledKey(map[ex := SiteEntry(true)], ex);
  }

  /** A shared suffix without the dot is not a subdomain: `notexample.com`
      is not greyscaled by the key `example.com`. */
  lemma SuffixWithoutDotMisses()
    ensures !HostEnabled("notexample.com", map["example.com" := SiteEntry(true)])
  {
    var ex := "example.com";
    var h := "notexample.com";
    assert !StartsWith(h, WwwPrefix) by { assert h[0] == 'n'; }
    assert h[|h| - |"." + ex|..][0] == 't';
    assert !Matches(h, ex);
    assert forall k :: EnabledKey(map[ex := SiteEntry(true)], k) ==> k == ex;
  }

  /** A disabled entry greyscales nothing, not even its own domain. */
  lemma DisabledKeyMisses()
    ensures !HostEnabled("a.com", map["a.com" := SiteEntry(false)])
  {
  }
}

=== FILE: strings.dfy ===
/** The JavaScript string operations the extension relies on, on `seq<char>`:
    `startsWith`/`endsWith`, first-occurrence `replace` with a string pattern,
    `trim`, ASCII `toLowerCase`, cutting at a character, and the decimal text
    a template literal produces for an integer. */
module Strings {
  import opened Wrappers

  /** `c` does not occur in `s`. */
  predicate Lacks(s: string, c: char) {
    forall i :: 0 <= i < |s| ==> s[i] != c
  }

  predicate StartsWith(s: string, prefix: string) {
    |prefix| <= |s| && s[..|prefix|] == prefix
  }

  predicate EndsWith(s: string, suffix: string) {
    |suffix| <= |s| && s[|s| - |suffix|..] == suffix
  }

  /** `pat` occurs in `s` starting at index `i`. */
  predicate OccursAt(s: string, pat: string, i: nat) {
    i + |pat| <= |s| && s[i..i + |pat|] == pat
  }

  /** The index of the first occurrence of `pat` in `s` at or after `from`. */
  function FindFrom(s: string, pat: string, from: nat): (r: Option<nat>)
    requires from <= |s|
    ensures r.Some? ==> from <= r.value && OccursAt(s, pat, r.value)
    ensures r.Some? ==> forall j :: from <= j < r.value ==> !OccursAt(s, pat, j)
    ensures r.None? ==> forall j :: from <= j ==> !OccursAt(s, pat, j)
    decreases |s| - from
  {
    if OccursAt(s, pat, from) then Some(from)
    else if from == |s| then None
    else FindFrom(s, pat, from + 1)
  }

  /** `s.indexOf(pat)`: the first index at which `pat` occurs, if any. */
  function IndexOf(s: string, pat: string): (r: Option<nat>)
    ensures r.Some? ==> OccursAt(s, pat, r.value)
    ensures r.Some? ==> forall j: nat :: j < r.value ==> !OccursAt(s, pat, j)
    ensures r.None? <==> forall j: nat :: !OccursAt(s, pat, j)
  {
    FindFrom(s, pat, 0)
  }

  /** `s.replace(pat, '')` with a string (not regular expression) pattern:
      only the first occurrence, wherever it is, is removed. */
  function RemoveFirst(s: string, pat: string): string {
    match IndexOf(s, pat)
    case None => s
    case Some(i) => s[..i] + s[i + |pat|..]
  }

  lemma RemoveFirstAtStart(s: string, pat: string)
    requires StartsWith(s, pat)
    ensures RemoveFirst(s, pat) == s[|pat|..]
  {
    assert OccursAt(s, pat, 0);
  }

  lemma RemoveFirstAbsent(s: string, pat: string)
    requires forall j: nat :: !OccursAt(s, pat, j)
    ensures RemoveFirst(s, pat) == s
  {
  }

  /** Appending after a character the prefix does not contain cannot make
      the prefix appear. */
  lemma NotStartsWithExtended(d: string, c: char, rest: string, prefix: string)
    requires !StartsWith(d, prefix) && Lacks(prefix, c)
    ensures !StartsWith(d + [c] + rest, prefix)
  {
    var s := d + [c] + rest;
    if |d| >= |prefix| {
      assert s[..|prefix|] == d[..|prefix|];
    } else if |prefix| <= |s| {
      assert s[..|prefix|][|d|] == c;
      assert prefix[|d|] != c;
    }
  }

  // ---------------------------------------------------------------------------
  // trim

  /** The characters `String.prototype.trim` removes: ECMAScript WhiteSpace
      (tab, vertical tab, form feed, space, no-break space, byte order mark and
      the Unicode space separators) and LineTerminator (LF, CR, LS, PS). */
  predicate IsJsWhiteSpace(c: char) {
    || c == '\t' || c == '\n' || c == '\U{000B}' || c == '\U{000C}' || c == '\r'
    || c == ' ' || c == '\U{00A0}' || c == '\U{1680}'
    || ('\U{2000}' <= c <= '\U{200A}')
    || c == '\U{2028}' || c == '\U{2029}' || c == '\U{202F}' || c == '\U{205F}'
    || c == '\U{3000}' || c == '\U{FEFF}'
  }

  function TrimStart(s: string): (r: string)
    ensures |r| <= |s| && r == s[|s| - |r|..]
    ensures forall i :: 0 <= i < |s| - |r| ==> IsJsWhiteSpace(s[i])
    ensures r == [] || !IsJsWhiteSpace(r[0])
  {
    if |s| > 0 && IsJsWhiteSpace(s[0]) then
      var r := TrimStart(s[1..]);
      assert forall i :: 1 <= i < |s| ==> s[i] == s[1..][i - 1];
      r
    else s
  }

  function TrimEnd(s: string): (r: string)
    ensures |r| <= |s| && r == s[..|r|]
    ensures forall i :: |r| <= i < |s| ==> IsJsWhiteSpace(s[i])
    ensures r == [] || !IsJsWhiteSpace(r[|r| - 1])
  {
    if |s| > 0 && IsJsWhiteSpace(s[|s| - 1]) then
      var r := TrimEnd(s[..|s| - 1]);
      assert forall i :: 0 <= i < |s| - 1 ==> s[i] == s[..|s| - 1][i];
      r
    else s
  }

  function Trim(s: string): string {
    TrimEnd(TrimStart(s))
  }

  /** A string with no white space at either end is its own trim. */
  lemma TrimFixpoint(s: string)
    requires s == [] || (!IsJsWhiteSpace(s[0]) && !IsJsWhiteSpace(s[|s| - 1]))
    ensures Trim(s) == s
  {
  }

  lemma TrimIdempotent(s: string)
    ensures Trim(Trim(s)) == Trim(s)
  {
    var t := TrimStart(s);
    var r := TrimEnd(t);
    if r != [] {
      assert r[0] == t[0];
    }
    TrimFixpoint(r);
  }

  // ---------------------------------------------------------------------------
  // ASCII case folding

  predicate IsAsciiUpper(c: char) {
    'A' <= c <= 'Z'
  }

  function LowerChar(c: char): char {
    if IsAsciiUpper(c) then (c as int + 32) as char else c
  }

  /** `toLowerCase` restricted to ASCII: upper-case ASCII letters become
      lower case and every other character is kept. */
  function ToLowerAscii(s: string): (r: string)
    ensures |r| == |s|
    ensures forall i :: 0 <= i < |s| ==> r[i] == LowerChar(s[i])
  {
    seq(|s|, i requires 0 <= i < |s| => LowerChar(s[i]))
  }

  lemma ToLowerAsciiProperties(s: string)
    ensures forall i :: 0 <= i < |s| ==> !IsAsciiUpper(ToLowerAscii(s)[i])
    ensures ToLowerAscii(ToLowerAscii(s)) == ToLowerAscii(s)
    ensures (forall i :: 0 <= i < |s| ==> !IsAsciiUpper(s[i])) ==> ToLowerAscii(s) == s
  {
  }

  /** Lowering never turns a character into white space or out of it. */
  lemma LowerKeepsWhiteSpace(c: char)
    ensures IsJsWhiteSpace(LowerChar(c)) <==> IsJsWhiteSpace(c)
  {
  }

  lemma {:induction false} TrimStartLower(s: string)
    ensures TrimStart(ToLowerAscii(s)) == ToLowerAscii(TrimStart(s))
    decreases |s|
  {
    if |s| > 0 {
      LowerKeepsWhiteSpace(s[0]);
      if IsJsWhiteSpace(s[0]) {
        assert ToLowerAscii(s)[1..] == ToLowerAscii(s[1..]);
        TrimStartLower(s[1..]);
      }
    }
  }

  lemma {:induction false} TrimEndLower(s: string)
    ensures TrimEnd(ToLowerAscii(s)) == ToLowerAscii(TrimEnd(s))
    decreases |s|
  {
    if |s| > 0 {
      var l := ToLowerAscii(s);
      LowerKeepsWhiteSpace(s[|s| - 1]);
      assert l[|l| - 1] == LowerChar(s[|s| - 1]);
      if IsJsWhiteSpace(s[|s| - 1]) {
        assert ToLowerAscii(s)[..|s| - 1] == ToLowerAscii(s[..|s| - 1]);
        TrimEndLower(s[..|s| - 1]);
      }
    }
  }

  /** Trimming and lowering commute. */
  lemma TrimLowerCommute(s: string)
    ensures Trim(ToLowerAscii(s)) == ToLowerAscii(Trim(s))
  {
    TrimStartLower(s);
    TrimEndLower(TrimStart(s));
  }

  // ---------------------------------------------------------------------------
  // cutting at a character

  /** The part of `s` before the first occurrence of `c` (all of `s` when
      `c` does not occur). */
  function Before(s: string, c: char): (r: string)
    ensures |r| <= |s| && r == s[..|r|]
    ensures Lacks(r, c)
    ensures |r| < |s| ==> s[|r|] == c
  {
    if s == [] then []
    else if s[0] == c then []
    else [s[0]] + Before(s[1..], c)
  }

  lemma BeforeAbsent(s: string, c: char)
    requires Lacks(s, c)
    ensures Before(s, c) == s
  {
  }

  lemma {:induction false} BeforeAppend(a: string, c: char, b: string)
    requires Lacks(a, c)
    ensures Before(a + [c] + b, c) == a
  {
    if a != [] {
      assert (a + [c] + b)[1..] == a[1..] + [c] + b;
      BeforeAppend(a[1..], c, b);
    } else {
      assert (a + [c] + b)[0] == c;
    }
  }

  // ---------------------------------------------------------------------------
  // decimal text of integers

  predicate IsDigit(c: char) {
    '0' <= c <= '9'
  }

  predicate AllDigits(s: string) {
    forall i :: 0 <= i < |s| ==> IsDigit(s[i])
  }

  function DigitChar(d: nat): (c: char)
    requires d < 10
    ensures IsDigit(c)
  {
    ('0' as int + d) as char
  }

  function DigitValue(c: char): nat
    requires IsDigit(c)
  {
    c as int - '0' as int
  }

  /** Decimal digits of `n` without leading zeros. */
  function NatToText(n: nat): (r: string)
    ensures |r| > 0 && AllDigits(r)
  {
    if n < 10 then [DigitChar(n)] else NatToText(n / 10) + [DigitChar(n % 10)]
  }

  function TextToNat(s: string): nat
    requires AllDigits(s)
  {
    if s == [] then 0 else TextToNat(s[..|s| - 1]) * 10 + DigitValue(s[|s| - 1])
  }

  /** What `${n}` produces for an integer `n`. */
  function IntToText(n: int): (r: string)
    ensures |r| > 0 && Lacks(r, '%')
  {
    var r := if n < 0 then "-" + NatToText(-n) else NatToText(n);
    assert forall i :: 0 <= i < |r| ==> r[i] == '-' || IsDigit(r[i]);
    r
  }

  /** Reads back an optionally signed run of decimal digits. */
  function TextToInt(s: string): Option<int> {
    if |s| > 1 && s[0] == '-' && AllDigits(s[1..]) then Some(0 - TextToNat(s[1..]) as int)
    else if |s| > 0 && AllDigits(s) then Some(TextToNat(s))
    else None
  }

  lemma {:induction false} NatTextRoundTrip(n: nat)
    ensures TextToNat(NatToText(n)) == n
  {
    if n >= 10 {
      var r := NatToText(n / 10);
      var s := r + [DigitChar(n % 10)];
      assert s[..|s| - 1] == r;
      NatTextRoundTrip(n / 10);
    }
  }

  /** The decimal text of an integer reads back as that integer, so
      different intensities give different texts. */
  lemma IntTextRoundTrip(n: int)
    ensures TextToInt(IntToText(n)) == Some(n)
  {
    if n < 0 {
      var t := NatToText(-n);
      assert ("-" + t)[1..] == t;
      NatTextRoundTrip(-n);
    } else {
      NatTextRoundTrip(n);
    }
  }

  lemma IntTextInjective(a: int, b: int)
    requires IntToText(a) == IntToText(b)
    ensures a == b
  {
    IntTextRoundTrip(a);
    IntTextRoundTrip(b);
  }
}

=== FILE: wrappers.dfy ===
/** Optional values, used wherever the extension's JavaScript reads something
    that may be absent (a search that finds nothing, a hostname the URL parser
    rejected, a style element that is not on the page). */
module Wrappers {

  datatype Option<+T> = None | Some(value: T)

}
